=== FILE: README.md ===
# EduShuar feature logic in Dafny

This project models the component logic of the EduShuar learning portal, an
Angular application about Shuar language and culture. It covers six pages.

- **Contribuir** (community contribution form). It validates the form,
  including the two consent check-boxes. It picks the accepted file types
  for the chosen content type and parses the comma-separated tags. After the
  upload service returns a URL, it builds a `pending` record and handles each
  upload event: an upload error, a failed database write and a successful
  write each have their own outcome.
- **Moderation**. It approves or deletes stored contributions and turns
  category and content-type ids into display labels.
- **Dictionary** and **Biblioteca** (content library). Each filters a list by
  two selectors plus a case-insensitive search, and re-filters after every
  criterion change. Biblioteca also maps each content type to an action
  label and an icon.
- **Stories**. A category picker where `'Todos'` shows every story.
- **Profile**. An edit session: entering edit mode takes a snapshot, cancel
  restores it, save keeps the edits. It also has preference and privacy
  toggles.

Every component is an immutable `State` record, and every handler is a pure
function from state (and inputs) to state. The contributions collection is a
`map<string, Contribution>` from document id to record. The outside world
enters only as inputs:

- the upload service is a sequence of `Step`s, each holding an upload event
  `{progress, url?, error?}`;
- each step also holds the reply `addDoc` would give if the callback writes
  (`Added(id)` or `WriteFailed`), and the clock value for `Timestamp.now()`;
- the moderator's `confirm` dialog is a boolean;
- `updateDoc` / `deleteDoc` outcomes are a `Reply` (`Ok` or `Failed`);
- the hard-coded word, item, story and user lists are parameters.

Files:

- `wrappers.dfy`: `Option`.
- `text.dfy`: ASCII `toLowerCase`, `includes`, `trim`, `split`/`join`, with
  their declarative meanings.
- `seqs.dfy`: `filter`/`map` over sequences; filtering keeps order.
- `contributions.dfy`: the stored record, `Status`, the `Store`.
- `contribuir.dfy`, `moderation.dfy`, `dictionary.dfy`, `biblioteca.dfy`,
  `stories.dfy`, `profile.dfy`: one module per component.

Behaviour of the code that the model keeps:

- The code has no reject action, no view counter, no download and no
  moderation search, filter or counts, so none are modelled.
- `deleteContribution` on an id that is already gone reports nothing. The
  result is void and every error is caught, so the model returns the store
  unchanged. It raises no not-found error.
- The code checks the upload event's `error` and `url` with two separate
  `if`s. The model keeps that: an event carrying both sets the retry message
  and then also writes the record.
- The stored record has no `viewCount` field. It also carries every other
  form field (location, cultural importance, age restriction and both
  consent flags) as entered.
- `resetForm` puts the content type back to `image` but does not touch
  `fileAcceptTypes`, so after a reset the picker can still accept only the
  previously chosen kind of file. The model keeps this.
- Category and content type are free strings in the code, not closed
  enumerations.

The library item's `type` field is called `kind` here, because `type` is a
Dafny keyword.

## Model

| member | source | states |
|---|---|---|
| Contribuir.Submit | src/app/features/contribuir/contribuir.ts:92-135 | An invalid form starts no upload, leaves the collection untouched and marks the form touched. A valid form starts the upload, and the collection only gains new `pending` records with a non-empty URL that copy the form. Existing records never change. With no events yet, both messages are cleared and progress is 0. When the stream completes, `isUploading` is false. |
| Contribuir.OnEvent | src/app/features/contribuir/contribuir.ts:109-134 | One callback. Progress shows the event's value unless a successful save reset it. An error without a URL sets the retry message and stops the spinner, with nothing written and nothing else changed. A URL whose write fails sets the distinct "uploaded but not saved" message, writes nothing and keeps the form. A URL whose write succeeds adds exactly one record under the fresh id: `pending`, with that URL, that time and the form's fields. It also sets the success message and resets the form with progress 0, untouched, keeping the accepted file types. Without a successful write the form is kept, and an event with neither error nor URL changes only the progress. The error and URL checks are independent: a saved event that also carried an error keeps the retry message beside the success message, and a failed write keeps the spinner as the error check left it. |
| Contribuir.RunSteps | src/app/features/contribuir/contribuir.ts:105-134 | Over the whole stream, old records are untouched and new ones are pending copies of the form with a non-empty URL. An empty stream changes nothing. |
| Contribuir.RunStepsWithoutWrites | src/app/features/contribuir/contribuir.ts:105-134 | If no write in the stream succeeded, the collection is unchanged. |
| Contribuir.RunStepsLastProgress | src/app/features/contribuir/contribuir.ts:110 | Progress ends at the last event's value unless that event's write succeeded and reset the form. |
| Contribuir.RunStepsCount | src/app/features/contribuir/contribuir.ts:105-134 | The collection grows by exactly the number of events whose write succeeded. |
| Contribuir.Valid | src/app/features/contribuir/contribuir.ts:51-67 | The form group is valid iff every one of its fourteen controls passes its validator, which works out to: content type, title, description and category non-empty, a file chosen, and both consent boxes ticked. |
| Contribuir.ValidIgnoresOptionalFields | src/app/features/contribuir/contribuir.ts:55-63 | The controls without a validator (Shuar title and description, tags, contributor, location, cultural importance, age restriction) never change validity. |
| Contribuir.ShowEvent | src/app/features/contribuir/contribuir.ts:110-114 | Progress becomes the event's value. An event with an error sets the retry message and stops the spinner and changes nothing else; one without changes only the progress. The form and success message are kept either way. |
| Contribuir.SaveRecord | src/app/features/contribuir/contribuir.ts:115-132 | A successful write adds exactly that record under the fresh id, sets the success message and resets the form with progress 0. The reset leaves an earlier retry message and the accepted file types alone. A failed write stores nothing and changes only the message, to "uploaded but not saved". |
| Contribuir.ResetForm | src/app/features/contribuir/contribuir.ts:144-162 | Defaults are restored: both consent flags false, no file, not touched, not uploading, progress 0. The result is therefore invalid. Messages and accepted file types are left as they were. |
| Contribuir.ResetAfterAudioKeepsAudioPicker | src/app/features/contribuir/contribuir.ts:77-162 | A reset after picking audio leaves the content type `image` while the file picker still accepts `audio/*` only: the two fall out of step. |
| Contribuir.ResubmitAfterResetFails | src/app/features/contribuir/contribuir.ts:147-162 | Submitting right after a reset uploads nothing and writes nothing. |
| Contribuir.UploadedButNotSaved | src/app/features/contribuir/contribuir.ts:124-132 | A successful upload whose write fails leaves no record with that URL. It shows the "uploaded but not saved" message, with no success message, and keeps the entered form. |
| Contribuir.Init | src/app/features/contribuir/contribuir.ts:51-69 | After `ngOnInit` the form holds its defaults and is invalid. Accepted types are `image/*`, nothing is uploading, there are no messages and the form is untouched. |
| Contribuir.AcceptFor | src/app/features/contribuir/contribuir.ts:79-80 | `find` semantics: the accept string of the first entry with that id, or `*` if no entry has it. |
| Contribuir.SelectContentType | src/app/features/contribuir/contribuir.ts:77-81 | Sets the content type to the argument and the accept string to `audio/*`, `video/*`, `image/*` or `*` for anything else. The rest of the form and state is unchanged. |
| Contribuir.OnFileChange | src/app/features/contribuir/contribuir.ts:83-90 | The file control holds the first chosen file, or none. Nothing else changes. |
| Contribuir.ParseTags | src/app/features/contribuir/contribuir.ts:118 | Every parsed tag is non-empty, has no leading or trailing whitespace and contains no comma. |
| Contribuir.ParseTagsConcat | src/app/features/contribuir/contribuir.ts:118 | The tags of `a + "," + b` are the tags of `a` followed by the tags of `b`, so input order is kept. |
| Contribuir.ParseTagsSingle | src/app/features/contribuir/contribuir.ts:118 | Comma-free text gives its trimmed self as one tag, or no tag if that is empty. |
| Contribuir.ParseJoinedTags | src/app/features/contribuir/contribuir.ts:118 | Round trip: tags that are non-empty, trimmed and comma-free, joined with commas, parse back to the same list; the empty list included. |
| Contribuir.ParseTagsWellFormed | src/app/features/contribuir/contribuir.ts:118 | A non-empty, trimmed, comma-free tag written alone parses to exactly that one tag. |
| Contribuir.ParseTagsSpaced | src/app/features/contribuir/contribuir.ts:118 | Any three well-formed tags written as `x, y ,, z` parse back to `[x, y, z]`: stray spaces and the empty piece vanish. |
| Contribuir.ParseTagsExample | src/app/features/contribuir/contribuir.ts:118 | `"a, b ,, c"` parses to `["a", "b", "c"]`. |
| Contribuir.BuildRecord | src/app/features/contribuir/contribuir.ts:115-122 | The stored record carries every form field except `file`, the parsed tags, the uploaded URL, status `pending` and the submission time. |
| Contribuir.RecordIgnoresFile | src/app/features/contribuir/contribuir.ts:103 | The stored record does not depend on the `file` control. |
| Contribuir.RecordDeterminesForm | src/app/features/contribuir/contribuir.ts:116-122 | Equal records come from forms that agree on every field except `file`, with tags equal once parsed. So every other field is copied into the record. |
| Moderation.ApproveContribution | src/app/features/moderation/moderation.ts:36-44 | Approving an existing id with a successful write sets only that record's status to approved. The key set and every other record are unchanged. An absent id or a failed write leaves the store unchanged, with no error to the caller. |
| Moderation.ApproveIdempotent | src/app/features/moderation/moderation.ts:39 | Approving twice gives the same store as approving once. |
| Moderation.DeleteContribution | src/app/features/moderation/moderation.ts:46-56 | Without confirmation, or if the delete fails, the store is unchanged. A confirmed, successful delete removes exactly that id. Every surviving record is unchanged. |
| Moderation.DeleteIdempotent | src/app/features/moderation/moderation.ts:46-56 | Deleting an already deleted id changes nothing. |
| Moderation.LabelOr | src/app/features/moderation/moderation.ts:66 | A present, non-empty label is returned; an absent key or an empty label falls back to the key, so a non-empty key never shows as blank. |
| Moderation.CategoryDisplay | src/app/features/moderation/moderation.ts:58-67 | The five known categories map to their labels, and any other input is returned unchanged. The output equals the input exactly when the input is unknown. |
| Moderation.ContentTypeDisplay | src/app/features/moderation/moderation.ts:69-77 | audio/video/image/document map to their labels, and anything else maps to itself. The output equals the input exactly when the input is unknown. |
| Moderation.CategoryLabelsAgreeWithForm | src/app/features/moderation/moderation.ts:59-65 | For every `{id, name}` in the submission form's category list, the moderation label of `id` is `name`. The two lists have the same size. |
| Moderation.ContentTypeLabelsAgreeWithForm | src/app/features/moderation/moderation.ts:70-75 | Every content type offered by the submission form gets the same display name on the moderation page. |
| Moderation.ApproveSubmitted | src/app/features/moderation/moderation.ts:36-44 | A record added by a successful submission is pending. Approving it makes it approved and keeps the submitter's fields and URL. All earlier records stay the same. |
| Dictionary.FilterWords | src/app/features/dictionary/dictionary.ts:148-157 | The result is an order-preserving subsequence of the word list. Every word in it meets category, difficulty and search together, and every word of the list that meets them is in it, as many times as it occurs in the list. A non-`all` category or difficulty means every result has exactly that value. |
| Dictionary.SearchMeaning | src/app/features/dictionary/dictionary.ts:152-154 | A word matches iff the lower-cased term occurs as a substring of the lower-cased Shuar word, translation or context. A missing or empty context never matches. |
| Dictionary.DefaultShowsAll | src/app/features/dictionary/dictionary.ts:13-15 | With `all`, `all` and an empty term the result is the whole list, in order. |
| Dictionary.SearchIgnoresCase | src/app/features/dictionary/dictionary.ts:152-154 | A search term and its lower-cased form give the same result. |
| Dictionary.Init | src/app/features/dictionary/dictionary.ts:129-131 | The constructor state has the default criteria and shows every word. The shown list is the filter of the full list. |
| Dictionary.OnSearchChange | src/app/features/dictionary/dictionary.ts:133-136 | Only the search term changes. The shown list is again the filter of the unchanged full list. |
| Dictionary.OnCategoryChange | src/app/features/dictionary/dictionary.ts:138-141 | Only the category changes. The shown list is again the filter of the unchanged full list. |
| Dictionary.OnDifficultyChange | src/app/features/dictionary/dictionary.ts:143-146 | Only the difficulty changes. The shown list is again the filter of the unchanged full list. |
| Dictionary.Run | src/app/features/dictionary/dictionary.ts:133-146 | After any sequence of handler calls the full list is unchanged and the shown list is its filter under the current criteria. |
| Biblioteca.FilterContent | src/app/features/biblioteca/biblioteca.ts:98-107 | The result is an order-preserving subsequence of the items. Every item in it meets category, type and search, and every item that meets them is in it, as many times as it occurs in the list. A non-`all` category or type means every result has exactly that value. |
| Biblioteca.DefaultShowsAll | src/app/features/biblioteca/biblioteca.ts:13-15 | With `all`, `all` and an empty term every item is shown, in order. |
| Biblioteca.SearchSeesOnlyTextFields | src/app/features/biblioteca/biblioteca.ts:102-104 | Only title, description and contributor are searched. Items equal on those three match any term alike. |
| Biblioteca.SearchMeaning | src/app/features/biblioteca/biblioteca.ts:102-104 | An item matches iff the lower-cased term occurs in the lower-cased title, description or contributor. |
| Biblioteca.SearchIgnoresCase | src/app/features/biblioteca/biblioteca.ts:102-104 | A search term and its lower-cased form give the same result. |
| Biblioteca.ActionText | src/app/features/biblioteca/biblioteca.ts:109-117 | Total. The four known types get their fixed labels. The result is `Ver Contenido` exactly when the type is not one of them. |
| Biblioteca.ActionIcon | src/app/features/biblioteca/biblioteca.ts:119-127 | Total. The four known types get their fixed icons. The result is `fas fa-eye` exactly when the type is not one of them. |
| Biblioteca.ActionsDistinguishKinds | src/app/features/biblioteca/biblioteca.ts:109-127 | Two different known types never share a label or an icon. |
| Biblioteca.Init | src/app/features/biblioteca/biblioteca.ts:79-81 | The constructor state has the default criteria and shows every item. |
| Biblioteca.OnSearchChange | src/app/features/biblioteca/biblioteca.ts:83-86 | Only the search term changes. The shown list is the filter of the unchanged items. |
| Biblioteca.OnCategoryChange | src/app/features/biblioteca/biblioteca.ts:88-91 | Only the category changes. The shown list is the filter of the unchanged items. |
| Biblioteca.OnContentTypeChange | src/app/features/biblioteca/biblioteca.ts:93-96 | Only the content type changes. The shown list is the filter of the unchanged items. |
| Stories.FilterByCategory | src/app/features/stories/stories.ts:64-71 | The selection becomes the argument. `Todos` shows every story. Any other category shows the order-preserving subsequence whose category is exactly that one, including every story that has it, as many times as it occurs in the list. |
| Stories.UnknownCategoryShowsNothing | src/app/features/stories/stories.ts:68-70 | A category no story has shows the empty list. |
| Stories.FilterForgetsHistory | src/app/features/stories/stories.ts:64-71 | The outcome depends only on the story list and the argument, not on the previous selection. |
| Stories.FilterIdempotent | src/app/features/stories/stories.ts:64-71 | Repeating a pick changes nothing. |
| Stories.Init | src/app/features/stories/stories.ts:60-62 | After `ngOnInit` the selection is `Todos` and all stories are shown. |
| Profile.Init | src/app/features/profile/profile.ts:15-41 | Starts on tab `perfil`, not editing, with language `es`, theme `claro`, both sharing flags on, and the snapshot equal to the user. |
| Profile.SetActiveTab | src/app/features/profile/profile.ts:43-45 | Changes only the active tab. |
| Profile.ToggleEditMode | src/app/features/profile/profile.ts:47-53 | Flips edit mode. Entering takes a snapshot of the user. Leaving keeps the user and the old snapshot. Nothing else changes. |
| Profile.SaveProfile | src/app/features/profile/profile.ts:55-59 | Keeps the edited user and leaves edit mode. Nothing else changes. |
| Profile.CancelEdit | src/app/features/profile/profile.ts:61-65 | The snapshot replaces the user and edit mode ends. Nothing else changes. |
| Profile.SetTheme | src/app/features/profile/profile.ts:67-69 | Changes only the theme. |
| Profile.ToggleShareProgress | src/app/features/profile/profile.ts:71-73 | Flips only the progress-sharing flag. |
| Profile.ToggleShareData | src/app/features/profile/profile.ts:75-77 | Flips only the data-sharing flag. |
| Profile.TogglesAreInvolutions | src/app/features/profile/profile.ts:71-77 | Either privacy toggle applied twice is the identity. |
| Profile.ApplyEdits | src/app/features/profile/profile.ts:43-77 | No edit, tab, theme or privacy action moves the snapshot or the edit flag. |
| Profile.CancelRestoresUser | src/app/features/profile/profile.ts:47-65 | Enter edit mode, make any changes, cancel: the user is back to its pre-edit value and editing is off. |
| Profile.SaveKeepsEdits | src/app/features/profile/profile.ts:55-59 | Enter edit mode, change the user, save: the new user stays and editing is off. |
| Profile.ToggleOutKeepsEdits | src/app/features/profile/profile.ts:47-53 | Leaving edit mode by toggling keeps the edits and does not take a new snapshot. |
| Text.Lower | src/app/features/dictionary/dictionary.ts:152-154 | Lower-casing keeps the length, leaves no upper-case ASCII letter, and leaves every other character where it was. |
| Text.LowerIdempotent | src/app/features/biblioteca/biblioteca.ts:102-104 | Lower-casing twice is lower-casing once. |
| Text.Trim | src/app/features/contribuir/contribuir.ts:118 | `trim`: the input is leading whitespace, then the result, then trailing whitespace. The result has no whitespace at either end. |
| Text.TrimPadded | src/app/features/contribuir/contribuir.ts:118 | Trimming a whitespace-padded word gives back exactly the word. |
| Text.Split | src/app/features/contribuir/contribuir.ts:118 | `split(',')` yields one more piece than there are separators, and no piece contains the separator. |
| Text.SplitConcat | src/app/features/contribuir/contribuir.ts:118 | Splitting `a + sep + b` gives the pieces of `a` followed by the pieces of `b`. |
| Text.JoinSplit | src/app/features/contribuir/contribuir.ts:118 | Joining the pieces with the separator gives back the input. |
| Text.SplitJoin | src/app/features/contribuir/contribuir.ts:118 | Splitting a join of separator-free pieces gives back the pieces. |
| Text.IncludesIffOccurs | src/app/features/dictionary/dictionary.ts:152-154 | `includes` holds iff the term occurs at some position of the text. |
| Seqs.Filter | src/app/features/dictionary/dictionary.ts:149-156 | Every element `filter` keeps satisfies the predicate, and the result is no longer than its input; `Seqs.FilterMultiset` gives the exact counts. |
| Seqs.FilterMembers | src/app/features/dictionary/dictionary.ts:149-156 | `filter` keeps only elements of its input, and every input element that satisfies the predicate is kept. |
| Seqs.FilterMultiset | src/app/features/dictionary/dictionary.ts:149-156 | Counted with multiplicity, `filter` keeps every occurrence of an element satisfying the predicate and none of any other. |
| Seqs.FilterIsSubsequence | src/app/features/biblioteca/biblioteca.ts:99-106 | `filter` keeps the relative order of the input. |

## Left out

- The upload service, the database and HTTP (`CloudinaryApi.upload`, `addDoc`, `updateDoc`, `deleteDoc`, `collectionData`) are not modelled. Their behaviour enters as inputs: upload events, `addDoc` replies, `Reply` values. `CloudinaryApi`'s implementation is not modelled; what it emits enters as the `Step` events.
- Database ids are inputs. `Submit` and `RunSteps` require the ids `addDoc` returns to be new, as the database guarantees.
- RxJS is not modelled: subscriptions, `finalize` timing, and `onCancel`/`ngOnDestroy` unsubscribing. The callbacks run one after another to completion, so two pending `addDoc` awaits never interleave. `onCancel`'s own reset is `ResetForm`.
- The 8-second timer that clears the messages after a reset is not modelled. `ResetForm` leaves the messages as they are.
- The file input's DOM clearing in `resetForm`, `window.confirm` (a boolean here), `console` logging and the dictionary's `Audio` playback are not modelled.
- Text handling is ASCII only. `Text.Lower` lower-cases only `A`-`Z`, and `Text.Trim` strips only space, tab, line feed, carriage return, vertical tab and form feed. JavaScript's Unicode case mapping and Unicode whitespace are not modelled.
- The object-prototype keys that `categories[category] || category` would also find (for example `constructor`) are not modelled.
- Angular's `markAllAsTouched` is a single `touched` flag here.
- A stream that is never torn down leaves `isUploading` as the last event set it. `finalize` runs on completion, on an error notification and on unsubscribe (`onCancel`, `ngOnDestroy`); `Submit`'s `completes` flag stands for any of the three.
- An error notification from the upload service itself (as opposed to an event whose `error` field is set) shows no message: `subscribe` is given only a `next` handler, so only `finalize` runs and `isUploading` becomes false. The model has no such notification apart from `completes`.
- The hard-coded dictionary, library, story and user data are parameters, not constants.
- The `Contribution` interface in moderation.ts is a subset of the stored record. The model uses the stored record.
- The pages with no local logic are not modelled: authentication, login, registration, header, navigation and routes. The same goes for the games and lessons modals, the lessons statistics default and the content form's simulated save.

=== FILE: biblioteca.dfy ===
/**
 * The content library page (`Biblioteca`): the item list is narrowed by a
 * category, a content type and a case-insensitive search over title,
 * description and contributor; each item type has an action label and an
 * icon. The item list itself is a parameter.
 */
module Biblioteca {
  import Text
  import Seqs

  datatype Item = Item(
    category: string,
    kind: string,
    title: string,
    description: string,
    duration: string,
    views: string,
    contributor: string,
    actionText: string,
    actionIcon: string)

  /** The wildcard value of the category and type selectors. */
  const All: string := "all"

  datatype Criteria = Criteria(searchTerm: string, selectedCategory: string, selectedContentType: string)

  const InitialCriteria: Criteria := Criteria("", All, All)

  predicate MatchesCategory(item: Item, c: Criteria)
  {
    c.selectedCategory == All || item.category == c.selectedCategory
  }

  predicate MatchesContentType(item: Item, c: Criteria)
  {
    c.selectedContentType == All || item.kind == c.selectedContentType
  }

  /** The search looks in the title, the description and the contributor only. */
  predicate MatchesSearch(item: Item, term: string)
  {
    || Text.IncludesIgnoringCase(item.title, term)
    || Text.IncludesIgnoringCase(item.description, term)
    || Text.IncludesIgnoringCase(item.contributor, term)
  }

  predicate Matches(item: Item, c: Criteria)
  {
    MatchesCategory(item, c) && MatchesContentType(item, c) && MatchesSearch(item, c.searchTerm)
  }

  /** `filterContent()`: the items meeting all three criteria, in list order. */
  function FilterContent(all: seq<Item>, c: Criteria): (r: seq<Item>)
    ensures Seqs.IsSubsequence(r, all)
    ensures forall i :: 0 <= i < |r| ==> Matches(r[i], c)
    ensures forall i :: 0 <= i < |all| && Matches(all[i], c) ==> all[i] in r
    ensures forall item :: multiset(r)[item] == if Matches(item, c) then multiset(all)[item] else 0
    ensures c.selectedCategory != All ==> forall i :: 0 <= i < |r| ==> r[i].category == c.selectedCategory
    ensures c.selectedContentType != All ==> forall i :: 0 <= i < |r| ==> r[i].kind == c.selectedContentType
  {
    Seqs.FilterIsSubsequence(all, item => Matches(item, c));
    Seqs.FilterMembers(all, item => Matches(item, c));
    Seqs.FilterMultiset(all, item => Matches(item, c));
    Seqs.Filter(all, item => Matches(item, c))
  }

  /** Without a selection and without a search term every item is shown, in order. */
  lemma DefaultShowsAll(all: seq<Item>)
    ensures FilterContent(all, InitialCriteria) == all
  {
    forall i | 0 <= i < |all|
      ensures Matches(all[i], InitialCriteria)
    {
      Text.IncludesIgnoringCaseEmpty(all[i].title);
    }
    Seqs.FilterAll(all, item => Matches(item, InitialCriteria));
  }

  /**
   * Only title, description and contributor are searched: two items that
   * agree on those three fields match any search term alike.
   */
  lemma SearchSeesOnlyTextFields(a: Item, b: Item, term: string)
    requires a.title == b.title && a.description == b.description && a.contributor == b.contributor
    ensures MatchesSearch(a, term) == MatchesSearch(b, term)
  {
  }

  /** The search means: the lower-cased term occurs in one of the three lower-cased texts. */
  lemma SearchMeaning(item: Item, term: string)
    ensures MatchesSearch(item, term) <==>
              || Text.Occurs(Text.Lower(term), Text.Lower(item.title))
              || Text.Occurs(Text.Lower(term), Text.Lower(item.description))
              || Text.Occurs(Text.Lower(term), Text.Lower(item.contributor))
  {
    Text.IncludesIffOccurs(Text.Lower(item.title), Text.Lower(term));
    Text.IncludesIffOccurs(Text.Lower(item.description), Text.Lower(term));
    Text.IncludesIffOccurs(Text.Lower(item.contributor), Text.Lower(term));
  }

  /** Upper and lower case in the search term make no difference. */
  lemma SearchIgnoresCase(all: seq<Item>, c: Criteria)
    ensures FilterContent(all, c.(searchTerm := Text.Lower(c.searchTerm))) == FilterContent(all, c)
  {
    var c' := c.(searchTerm := Text.Lower(c.searchTerm));
    forall i | 0 <= i < |all|
      ensures Matches(all[i], c') == Matches(all[i], c)
    {
      Text.IncludesIgnoringCaseLower(all[i].title, c.searchTerm);
      Text.IncludesIgnoringCaseLower(all[i].description, c.searchTerm);
      Text.IncludesIgnoringCaseLower(all[i].contributor, c.searchTerm);
    }
    Seqs.FilterCongruent(all, item => Matches(item, c'), item => Matches(item, c));
  }

  /* --------------------------- action labels --------------------------- */

  /** The content types with a dedicated action. */
  const KnownKinds: set<string> := {"video", "audio", "image", "document"}

  /** `getActionText(type)`. */
  function ActionText(kind: string): (r: string)
    ensures kind == "video" ==> r == "Ver Video"
    ensures kind == "audio" ==> r == "Reproducir"
    ensures kind == "image" ==> r == "Ver Imagen"
    ensures kind == "document" ==> r == "Ver Documento"
    ensures r == "Ver Contenido" <==> kind !in KnownKinds
  {
    if kind == "video" then "Ver Video"
    else if kind == "audio" then "Reproducir"
    else if kind == "image" then "Ver Imagen"
    else if kind == "document" then "Ver Documento"
    else "Ver Contenido"
  }

  /** `getActionIcon(type)`. */
  function ActionIcon(kind: string): (r: string)
    ensures kind == "video" ==> r == "fas fa-video"
    ensures kind == "audio" ==> r == "fas fa-headphones-alt"
    ensures kind == "image" ==> r == "fas fa-image"
    ensures kind == "document" ==> r == "fas fa-file-alt"
    ensures r == "fas fa-eye" <==> kind !in KnownKinds
  {
    if kind == "video" then "fas fa-video"
    else if kind == "audio" then "fas fa-headphones-alt"
    else if kind == "image" then "fas fa-image"
    else if kind == "document" then "fas fa-file-alt"
    else "fas fa-eye"
  }

  /** Different known types get different labels and icons. */
  lemma ActionsDistinguishKinds(k1: string, k2: string)
    requires k1 in KnownKinds && k2 in KnownKinds && k1 != k2
    ensures ActionText(k1) != ActionText(k2)
    ensures ActionIcon(k1) != ActionIcon(k2)
  {
  }

  /* ------------------------------ component ------------------------------ */

  datatype State = State(criteria: Criteria, allContent: seq<Item>, filteredContent: seq<Item>)

  predicate Consistent(st: State)
  {
    st.filteredContent == FilterContent(st.allContent, st.criteria)
  }

  /** The constructor: default criteria, then an initial filter. */
  function Init(allContent: seq<Item>): (st: State)
    ensures Consistent(st)
    ensures st.criteria == InitialCriteria && st.allContent == allContent
    ensures st.filteredContent == allContent
  {
    DefaultShowsAll(allContent);
    State(InitialCriteria, allContent, FilterContent(allContent, InitialCriteria))
  }

  /** `onSearchChange`. */
  function OnSearchChange(st: State, value: string): (r: State)
    ensures Consistent(r) && r.allContent == st.allContent
    ensures r.criteria == st.criteria.(searchTerm := value)
  {
    var c := st.criteria.(searchTerm := value);
    st.(criteria := c, filteredContent := FilterContent(st.allContent, c))
  }

  /** `onCategoryChange`. */
  function OnCategoryChange(st: State, category: string): (r: State)
    ensures Consistent(r) && r.allContent == st.allContent
    ensures r.criteria == st.criteria.(selectedCategory := category)
  {
    var c := st.criteria.(selectedCategory := category);
    st.(criteria := c, filteredContent := FilterContent(st.allContent, c))
  }

  /** `onContentTypeChange`. */
  function OnContentTypeChange(st: State, kind: string): (r: State)
    ensures Consistent(r) && r.allContent == st.allContent
    ensures r.criteria == st.criteria.(selectedContentType := kind)
  {
    var c := st.criteria.(selectedContentType := kind);
    st.(criteria := c, filteredContent := FilterContent(st.allContent, c))
  }
}

=== FILE: contribuir.dfy ===
/**
 * The contribution submission form (`ContribuirComponent`): validation,
 * content-type selection, tag parsing, construction of the stored record
 * and the handling of the upload service's event stream and of the
 * database write that follows a successful upload.
 *
 * The upload service and the database are outside the model: the upload
 * is a finite sequence of events, and each event carries the reply the
 * database would give if the callback writes a record for it.
 */
module Contribuir {
  import opened Wrappers
  import Text
  import Seqs
  import opened Contributions

  /* ---------------------------- form and state ---------------------------- */

  /** The browser `File` chosen in the file input; opaque to the component. */
  datatype FileRef = FileRef(name: string)

  /** The value of `contributionForm`. */
  datatype FormValue = FormValue(
    contentType: string,
    file: Option<FileRef>,
    title: string,
    shuarTitle: string,
    description: string,
    shuarDescription: string,
    category: string,
    tags: string,
    contributor: string,
    location: string,
    culturalImportance: string,
    ageRestriction: string,
    permissions: bool,
    respect: bool)

  /** The component fields `onSubmit` and `resetForm` read and write. */
  datatype State = State(
    form: FormValue,
    touched: bool,
    uploadProgress: int,
    isUploading: bool,
    successMessage: Option<string>,
    errorMessage: Option<string>,
    fileAcceptTypes: string)

  datatype ContentType = ContentType(id: string, name: string, icon: string, accept: string)

  datatype Category = Category(id: string, name: string)

  const ContentTypes: seq<ContentType> := [
    ContentType("audio", "Audio", "fas fa-volume-up", "audio/*"),
    ContentType("video", "Video", "fas fa-video", "video/*"),
    ContentType("image", "Imagen", "fas fa-image", "image/*")
  ]

  const Categories: seq<Category> := [
    Category("medicine", "Medicina Tradicional"),
    Category("ritual", "Rituales y Ceremonias"),
    Category("music", "Música y Danza"),
    Category("history", "Historia Oral"),
    Category("language", "Lengua y Vocabulario")
  ]

  /** The form's initial value, which is also what `resetForm` restores. */
  const DefaultForm: FormValue :=
    FormValue("image", None, "", "", "", "", "", "", "", "", "", "all", false, false)

  const UploadErrorMessage: string :=
    "Hubo un error al subir el archivo. Por favor, inténtalo de nuevo."
  const SuccessMessage: string :=
    "¡Tu contribución ha sido enviada con éxito para su revisión!"
  const PersistenceErrorMessage: string :=
    "El archivo se subió, pero no se pudo guardar la contribución. Contacta a soporte."

  /* ------------------------------ validation ------------------------------ */

  /** The validators the form builder attaches to a control. */
  datatype Validator = NoValidator | RequiredValidator | RequiredTrueValidator

  /** A control's value: text, the chosen file, or a check-box. */
  datatype ControlValue = TextValue(text: string) | FileValue(file: Option<FileRef>) | FlagValue(flag: bool)

  datatype Control = Control(name: string, value: ControlValue, validator: Validator)

  /**
   * One control's validity. `required` rejects the empty string and `null`
   * (an unticked check-box still has a value); `requiredTrue` accepts only `true`.
   */
  predicate Passes(c: Control)
  {
    match c.validator
    case NoValidator => true
    case RequiredValidator =>
      (match c.value
       case TextValue(t) => |t| > 0
       case FileValue(f) => f.Some?
       case FlagValue(_) => true)
    case RequiredTrueValidator => c.value.FlagValue? && c.value.flag
  }

  /** The form group as `ngOnInit` builds it: every control with its validator. */
  function Controls(f: FormValue): seq<Control>
  {
    [ Control("contentType", TextValue(f.contentType), RequiredValidator),
      Control("file", FileValue(f.file), RequiredValidator),
      Control("title", TextValue(f.title), RequiredValidator),
      Control("shuarTitle", TextValue(f.shuarTitle), NoValidator),
      Control("description", TextValue(f.description), RequiredValidator),
      Control("shuarDescription", TextValue(f.shuarDescription), NoValidator),
      Control("category", TextValue(f.category), RequiredValidator),
      Control("tags", TextValue(f.tags), NoValidator),
      Control("contributor", TextValue(f.contributor), NoValidator),
      Control("location", TextValue(f.location), NoValidator),
      Control("culturalImportance", TextValue(f.culturalImportance), NoValidator),
      Control("ageRestriction", TextValue(f.ageRestriction), NoValidator),
      Control("permissions", FlagValue(f.permissions), RequiredTrueValidator),
      Control("respect", FlagValue(f.respect), RequiredTrueValidator) ]
  }

  /**
   * `contributionForm.valid`: every control passes its validator. Concretely,
   * content type, title, description and category are non-empty, a file is
   * chosen and both consent check-boxes are ticked.
   */
  predicate Valid(f: FormValue)
    ensures Valid(f) <==>
              && |f.contentType| > 0 && f.file.Some? && |f.title| > 0
              && |f.description| > 0 && |f.category| > 0
              && f.permissions && f.respect
  {
    var cs := Controls(f);
    assert Passes(cs[0]) == (|f.contentType| > 0) && Passes(cs[1]) == f.file.Some?;
    assert Passes(cs[2]) == (|f.title| > 0) && Passes(cs[4]) == (|f.description| > 0);
    assert Passes(cs[6]) == (|f.category| > 0);
    assert Passes(cs[12]) == f.permissions && Passes(cs[13]) == f.respect;
    forall i :: 0 <= i < |cs| ==> Passes(cs[i])
  }

  /** The fields without a validator never decide validity. */
  lemma ValidIgnoresOptionalFields(f: FormValue, shuarTitle: string, shuarDescription: string, tags: string,
                                   contributor: string, location: string, culturalImportance: string,
                                   ageRestriction: string)
    ensures Valid(f) == Valid(f.(shuarTitle := shuarTitle, shuarDescription := shuarDescription, tags := tags,
                                 contributor := contributor, location := location,
                                 culturalImportance := culturalImportance, ageRestriction := ageRestriction))
  {
  }

  /* --------------------------- content-type pick --------------------------- */

  /** `contentTypes.find(t => t.id === id)?.accept ?? '*'`. */
  function AcceptFor(types: seq<ContentType>, id: string): (r: string)
    ensures (forall i :: 0 <= i < |types| ==> types[i].id != id) ==> r == "*"
    ensures forall i :: (0 <= i < |types| && types[i].id == id
                         && (forall j :: 0 <= j < i ==> types[j].id != id)) ==> r == types[i].accept
  {
    if |types| == 0 then "*"
    else if types[0].id == id then types[0].accept
    else AcceptFor(types[1..], id)
  }

  /** `selectContentType(typeId)`. */
  function SelectContentType(st: State, typeId: string): (r: State)
    ensures r.form.contentType == typeId
    ensures r.form.(contentType := st.form.contentType) == st.form
    ensures r.(form := st.form, fileAcceptTypes := st.fileAcceptTypes) == st
    ensures typeId == "audio" ==> r.fileAcceptTypes == "audio/*"
    ensures typeId == "video" ==> r.fileAcceptTypes == "video/*"
    ensures typeId == "image" ==> r.fileAcceptTypes == "image/*"
    ensures typeId !in {"audio", "video", "image"} ==> r.fileAcceptTypes == "*"
  {
    st.(form := st.form.(contentType := typeId), fileAcceptTypes := AcceptFor(ContentTypes, typeId))
  }

  /** The component right after `ngOnInit`. */
  function Init(): (st: State)
    ensures st.form == DefaultForm && !Valid(st.form)
    ensures st.fileAcceptTypes == "image/*"
    ensures st.uploadProgress == 0 && !st.isUploading
    ensures st.successMessage == None && st.errorMessage == None
    // a freshly built form group is untouched, so no errors show on load
    ensures !st.touched
  {
    var fields := State(DefaultForm, false, 0, false, None, None, "audio/*,video/*,image/*");
    SelectContentType(fields, "image")
  }

  /** `onFileChange`: the first selected file, or none. */
  function OnFileChange(st: State, files: seq<FileRef>): (r: State)
    ensures |files| > 0 ==> r.form.file == Some(files[0])
    ensures |files| == 0 ==> r.form.file == None
    ensures r.form.(file := st.form.file) == st.form
    ensures r.(form := st.form) == st
  {
    st.(form := st.form.(file := if |files| > 0 then Some(files[0]) else None))
  }

  /* ------------------------------- tags ------------------------------- */

  predicate NonEmpty(s: string) { |s| > 0 }

  /** What a parsed tag looks like. */
  predicate WellFormedTag(t: string)
  {
    NonEmpty(t) && Text.Trimmed(t) && ',' !in t
  }

  /** Trimming comma-free pieces and dropping the empty ones leaves well-formed tags only. */
  lemma CleanPieces(pieces: seq<string>)
    requires forall i :: 0 <= i < |pieces| ==> ',' !in pieces[i]
    ensures forall i :: 0 <= i < |Seqs.Filter(Seqs.Map(pieces, Text.Trim), NonEmpty)| ==>
              WellFormedTag(Seqs.Filter(Seqs.Map(pieces, Text.Trim), NonEmpty)[i])
  {
    var trimmed := Seqs.Map(pieces, Text.Trim);
    forall i | 0 <= i < |trimmed|
      ensures Text.Trimmed(trimmed[i]) && ',' !in trimmed[i]
    {
      Text.TrimKeepsOut(pieces[i], ',');
    }
    Seqs.FilterKeeps(trimmed, NonEmpty, t => Text.Trimmed(t) && ',' !in t);
    var tags := Seqs.Filter(trimmed, NonEmpty);
    forall i | 0 <= i < |tags|
      ensures WellFormedTag(tags[i])
    {
      assert NonEmpty(tags[i]);
    }
  }

  /** `tags.split(',').map(tag => tag.trim()).filter(Boolean)`. */
  function ParseTags(text: string): (tags: seq<string>)
    ensures forall i :: 0 <= i < |tags| ==> WellFormedTag(tags[i])
  {
    var pieces := Text.Split(text, ',');
    CleanPieces(pieces);
    Seqs.Filter(Seqs.Map(pieces, Text.Trim), NonEmpty)
  }

  /** Tags on either side of a comma are parsed independently and kept in order. */
  lemma ParseTagsConcat(a: string, b: string)
    ensures ParseTags(a + "," + b) == ParseTags(a) + ParseTags(b)
  {
    Text.SplitConcat(a, b, ',');
    var pa := Text.Split(a, ',');
    var pb := Text.Split(b, ',');
    Seqs.MapConcat(pa, pb, Text.Trim);
    Seqs.FilterConcat(Seqs.Map(pa, Text.Trim), Seqs.Map(pb, Text.Trim), NonEmpty);
  }

  /** A comma-free text is one tag, its trimmed self, unless that is empty. */
  lemma ParseTagsSingle(s: string)
    requires ',' !in s
    ensures ParseTags(s) == if |Text.Trim(s)| > 0 then [Text.Trim(s)] else []
  {
    Text.SplitFree(s, ',');
    assert Seqs.Map([s], Text.Trim) == [Text.Trim(s)];
    assert Seqs.Filter([Text.Trim(s)], NonEmpty)
        == (if NonEmpty(Text.Trim(s)) then [Text.Trim(s)] + Seqs.Filter([], NonEmpty) else Seqs.Filter([], NonEmpty));
  }

  /** Tags that are non-empty, trimmed and comma-free survive a join and re-parse unchanged. */
  lemma ParseJoinedTags(tags: seq<string>)
    requires forall i :: 0 <= i < |tags| ==> WellFormedTag(tags[i])
    ensures ParseTags(Text.Join(tags, ',')) == tags
  {
    if |tags| == 0 {
      ParseTagsBlank(Text.Join(tags, ','));
    } else {
      ParseJoinedSome(tags);
    }
  }

  /** The non-empty case of `ParseJoinedTags`. */
  lemma ParseJoinedSome(tags: seq<string>)
    requires |tags| >= 1
    requires forall i :: 0 <= i < |tags| ==> WellFormedTag(tags[i])
    ensures ParseTags(Text.Join(tags, ',')) == tags
  {
    Text.SplitJoin(tags, ',');
    forall i | 0 <= i < |tags|
      ensures Text.Trim(tags[i]) == tags[i]
    {
      Text.TrimOfTrimmed(tags[i]);
    }
    assert Seqs.Map(tags, Text.Trim) == tags;
    Seqs.FilterAll(tags, NonEmpty);
  }

  /** A comma-free word padded with whitespace parses to that one word. */
  lemma ParseTagsPadded(pre: string, w: string, post: string)
    requires Text.AllSpace(pre) && Text.AllSpace(post)
    requires NonEmpty(w) && Text.Trimmed(w) && ',' !in w
    requires ',' !in pre && ',' !in post
    ensures ParseTags(pre + w + post) == [w]
  {
    var s := pre + w + post;
    assert ',' !in s by {
      forall i | 0 <= i < |s| ensures s[i] != ',' {
        if i < |pre| { assert s[i] == pre[i]; }
        else if i < |pre| + |w| { assert s[i] == w[i - |pre|]; }
        else { assert s[i] == post[i - |pre| - |w|]; }
      }
    }
    ParseTagsSingle(s);
    Text.TrimPadded(pre, w, post);
  }

  /** A run of whitespace parses to no tags. */
  lemma ParseTagsBlank(s: string)
    requires Text.AllSpace(s)
    ensures ParseTags(s) == []
  {
    assert ',' !in s by {
      forall i | 0 <= i < |s| ensures s[i] != ',' { assert Text.IsSpace(s[i]); }
    }
    ParseTagsSingle(s);
  }

  /** The example's text cut at its three commas. */
  lemma SpacedPieces(x: string, y: string, z: string)
    ensures x + ", " + y + " ,, " + z == x + "," + ((" " + y + " ") + "," + ("" + "," + (" " + z)))
  {
  }

  /** An empty piece before a comma contributes no tag. */
  lemma ParseTagsEmptyPiece(q: string)
    ensures ParseTags("" + "," + q) == ParseTags(q)
  {
    ParseTagsConcat("", q);
    ParseTagsBlank("");
  }

  /** A tag with a space in front parses to the tag. */
  lemma ParseTagsLeftPadded(z: string)
    requires WellFormedTag(z)
    ensures ParseTags(" " + z) == [z]
  {
    ParseTagsPadded(" ", z, "");
    assert " " + z + "" == " " + z;
  }

  /** A tag with a space on each side parses to the tag. */
  lemma ParseTagsBothPadded(y: string)
    requires WellFormedTag(y)
    ensures ParseTags(" " + y + " ") == [y]
  {
    ParseTagsPadded(" ", y, " ");
  }

  /** A well-formed tag on its own parses to itself. */
  lemma ParseTagsWellFormed(x: string)
    requires WellFormedTag(x)
    ensures ParseTags(x) == [x]
  {
    ParseTagsSingle(x);
    Text.TrimOfTrimmed(x);
  }

  /** Two texts that give one tag each give both tags when joined by a comma. */
  lemma ParseTagsTwo(a: string, b: string, x: string, y: string)
    requires ParseTags(a) == [x] && ParseTags(b) == [y]
    ensures ParseTags(a + "," + b) == [x, y]
  {
    ParseTagsConcat(a, b);
  }

  /** A text that gives one tag, a comma, then a text that gives two tags. */
  lemma ParseTagsThree(a: string, b: string, x: string, y: string, z: string)
    requires ParseTags(a) == [x] && ParseTags(b) == [y, z]
    ensures ParseTags(a + "," + b) == [x, y, z]
  {
    ParseTagsConcat(a, b);
  }

  /** The pieces after the first comma: a padded tag, an empty piece and another padded tag. */
  lemma SpacedTail(y: string, z: string)
    requires WellFormedTag(y) && WellFormedTag(z)
    ensures ParseTags((" " + y + " ") + "," + ("" + "," + (" " + z))) == [y, z]
  {
    ParseTagsBothPadded(y);
    ParseTagsEmptyPiece(" " + z);
    ParseTagsLeftPadded(z);
    ParseTagsTwo(" " + y + " ", "" + "," + (" " + z), y, z);
  }

  /**
   * The shape of the worked example: three tags written with stray spaces
   * and an empty piece between the commas come back as the three tags.
   */
  lemma ParseTagsSpaced(x: string, y: string, z: string)
    requires WellFormedTag(x) && WellFormedTag(y) && WellFormedTag(z)
    ensures ParseTags(x + ", " + y + " ,, " + z) == [x, y, z]
  {
    SpacedPieces(x, y, z);
    SpacedTail(y, z);
    ParseTagsWellFormed(x);
    ParseTagsThree(x, (" " + y + " ") + "," + ("" + "," + (" " + z)), x, y, z);
  }

  /** The three tags of the worked example are well formed. */
  lemma ExampleTagsWellFormed()
    ensures WellFormedTag("a") && WellFormedTag("b") && WellFormedTag("c")
  {
  }

  /** The worked example: `"a, b ,, c"` parses to `["a", "b", "c"]`. */
  lemma ParseTagsExample()
    ensures ParseTags("a, b ,, c") == ["a", "b", "c"]
  {
    ExampleTagsWellFormed();
    ParseTagsSpaced("a", "b", "c");
    assert "a" + ", " + "b" + " ,, " + "c" == "a, b ,, c";
  }

  /* --------------------------- stored record --------------------------- */

  /** `c` holds every form field of `fv` except `file`, with the tags parsed. */
  predicate CopiesForm(c: Contribution, fv: FormValue)
  {
    && c.contentType == fv.contentType
    && c.title == fv.title
    && c.shuarTitle == fv.shuarTitle
    && c.description == fv.description
    && c.shuarDescription == fv.shuarDescription
    && c.category == fv.category
    && c.tags == ParseTags(fv.tags)
    && c.contributor == fv.contributor
    && c.location == fv.location
    && c.culturalImportance == fv.culturalImportance
    && c.ageRestriction == fv.ageRestriction
    && c.permissions == fv.permissions
    && c.respect == fv.respect
  }

  /** `{ ...formValue, tags, fileUrl, moderation: { status: 'pending' }, submissionDate }`. */
  function BuildRecord(fv: FormValue, url: string, now: int): (c: Contribution)
    ensures CopiesForm(c, fv)
    ensures c.fileUrl == url && c.status == Pending && c.submissionDate == now
  {
    Contribution(
      fv.contentType, fv.title, fv.shuarTitle, fv.description, fv.shuarDescription,
      fv.category, ParseTags(fv.tags), fv.contributor, fv.location,
      fv.culturalImportance, fv.ageRestriction, fv.permissions, fv.respect,
      url, Pending, now)
  }

  /** The record does not depend on the chosen file, only on its uploaded URL. */
  lemma RecordIgnoresFile(fv: FormValue, other: Option<FileRef>, url: string, now: int)
    ensures BuildRecord(fv.(file := other), url, now) == BuildRecord(fv, url, now)
  {
  }

  /** Two forms give the same record only if they agree on every field but `file`, up to tag parsing. */
  lemma RecordDeterminesForm(fv1: FormValue, fv2: FormValue, url: string, now: int)
    requires BuildRecord(fv1, url, now) == BuildRecord(fv2, url, now)
    ensures fv1.(file := None, tags := "") == fv2.(file := None, tags := "")
    ensures ParseTags(fv1.tags) == ParseTags(fv2.tags)
  {
  }

  /* --------------------------- upload stream --------------------------- */

  /** One emission of the upload service: `{ progress, url?, error? }`. */
  datatype UploadEvent = UploadEvent(progress: int, url: Option<string>, error: Option<string>)

  /** What `addDoc` does when called: it stores under a new id, or throws. */
  datatype StoreReply = Added(id: string) | WriteFailed

  /**
   * One run of the subscription callback: the event, the database's reply
   * should the callback write a record, and the clock (`Timestamp.now()`).
   */
  datatype Step = Step(event: UploadEvent, reply: StoreReply, now: int)

  /** JavaScript truthiness of an optional string: present and non-empty. */
  predicate Truthy(o: Option<string>) { o.Some? && |o.value| > 0 }

  /** The callback for this step issues a write, and the write succeeds. */
  predicate Writes(step: Step) { Truthy(step.event.url) && step.reply.Added? }

  /** The ids the database hands out are new to the collection and to each other. */
  predicate FreshIds(store: Store, steps: seq<Step>)
  {
    && (forall i :: 0 <= i < |steps| && Writes(steps[i]) ==> steps[i].reply.id !in store)
    && (forall i, j :: 0 <= i < j < |steps| && Writes(steps[i]) && Writes(steps[j]) ==>
          steps[i].reply.id != steps[j].reply.id)
  }

  /** The component state together with the collection. */
  datatype Session = Session(state: State, store: Store)

  /**
   * `resetForm`: the form goes back to its defaults and the upload
   * indicators are cleared. The messages are left for the timer.
   */
  function ResetForm(st: State): (r: State)
    ensures r.form == DefaultForm && !r.touched && !r.isUploading && r.uploadProgress == 0
    ensures !r.form.permissions && !r.form.respect && r.form.file == None
    ensures !Valid(r.form)
    ensures r.successMessage == st.successMessage && r.errorMessage == st.errorMessage
    ensures r.fileAcceptTypes == st.fileAcceptTypes
  {
    st.(form := DefaultForm, touched := false, isUploading := false, uploadProgress := 0)
  }

  /**
   * After picking audio, a reset puts the content type back to `image`
   * but leaves the file picker accepting audio files only.
   */
  lemma ResetAfterAudioKeepsAudioPicker(st: State)
    ensures var r := ResetForm(SelectContentType(st, "audio"));
            r.form.contentType == "image" && r.fileAcceptTypes == "audio/*"
  {
  }

  /** `after` is `before` with one record `rec` added under the new key `id`, and nothing else changed. */
  predicate AddsOne(before: Store, after: Store, id: string, rec: Contribution)
  {
    && id !in before
    && after.Keys == before.Keys + {id}
    && after[id] == rec
    && (forall k :: k in before ==> after[k] == before[k])
  }

  /** Adding one record grows the collection by exactly one. */
  lemma AddsOneSize(before: Store, after: Store, id: string, rec: Contribution)
    requires AddsOne(before, after, id, rec)
    ensures |after| == |before| + 1
  {
    assert after.Keys == before.Keys + {id};
    assert |after.Keys| == |before.Keys| + 1;
  }

  /** The first part of the callback: show the progress and, on an error, the retry message. */
  function ShowEvent(st: State, ev: UploadEvent): (r: State)
    ensures r.uploadProgress == ev.progress
    ensures Truthy(ev.error) ==> r.errorMessage == Some(UploadErrorMessage) && !r.isUploading
    ensures Truthy(ev.error) ==>
              r == st.(uploadProgress := ev.progress, errorMessage := Some(UploadErrorMessage), isUploading := false)
    ensures !Truthy(ev.error) ==> r == st.(uploadProgress := ev.progress)
    ensures r.form == st.form && r.successMessage == st.successMessage
  {
    var shown := st.(uploadProgress := ev.progress);
    if Truthy(ev.error) then shown.(errorMessage := Some(UploadErrorMessage), isUploading := false) else shown
  }

  /** The second part of the callback, once there is a URL: the write of `record` and what follows it. */
  function SaveRecord(st: State, store: Store, record: Contribution, reply: StoreReply): (r: Session)
    requires reply.Added? ==> reply.id !in store
    ensures reply.Added? ==>
              && AddsOne(store, r.store, reply.id, record)
              && r.state.successMessage == Some(SuccessMessage)
              && r.state.form == DefaultForm && !r.state.isUploading && r.state.uploadProgress == 0
    // the reset leaves an earlier retry message and the accepted file types alone
    ensures reply.Added? ==>
              r.state.errorMessage == st.errorMessage && r.state.fileAcceptTypes == st.fileAcceptTypes
              && !r.state.touched
    // a failed write only sets the persistence message
    ensures reply.WriteFailed? ==> r.state == st.(errorMessage := Some(PersistenceErrorMessage))
    ensures reply.WriteFailed? ==>
              && r.store == store && r.state.errorMessage == Some(PersistenceErrorMessage)
              && r.state.form == st.form && r.state.successMessage == st.successMessage
              && r.state.uploadProgress == st.uploadProgress
  {
    match reply
    case Added(id) => Session(ResetForm(st.(successMessage := Some(SuccessMessage))), store[id := record])
    case WriteFailed => Session(st.(errorMessage := Some(PersistenceErrorMessage)), store)
  }

  /**
   * The subscription callback for one event. `fv` is the form value
   * captured (without its file) when the submission started.
   */
  function OnEvent(st: State, store: Store, fv: FormValue, step: Step): (r: Session)
    requires Writes(step) ==> step.reply.id !in store
    // the progress is always shown, unless a successful save reset it
    ensures !Writes(step) ==> r.state.uploadProgress == step.event.progress
    // an error without a URL: retry message, nothing written
    ensures Truthy(step.event.error) && !Truthy(step.event.url) ==>
              r.store == store && r.state.errorMessage == Some(UploadErrorMessage)
              && !r.state.isUploading && r.state.form == st.form
    // no URL: nothing is written
    ensures !Truthy(step.event.url) ==> r.store == store && r.state.successMessage == st.successMessage
    // only a successful save replaces the form
    ensures !Writes(step) ==> r.state.form == st.form
    // a plain progress event changes the progress and nothing else
    ensures !Truthy(step.event.error) && !Truthy(step.event.url) ==>
              r == Session(st.(uploadProgress := step.event.progress), store)
    // URL but the write fails: distinct message, nothing written, form kept
    ensures Truthy(step.event.url) && step.reply.WriteFailed? ==>
              r.store == store && r.state.errorMessage == Some(PersistenceErrorMessage)
              && r.state.form == st.form && r.state.successMessage == st.successMessage
    // URL and the write succeeds: exactly one pending record with that URL, form reset
    ensures Writes(step) ==>
              && AddsOne(store, r.store, step.reply.id, BuildRecord(fv, step.event.url.value, step.now))
              && r.state.successMessage == Some(SuccessMessage)
              && r.state.form == DefaultForm && !r.state.isUploading && r.state.uploadProgress == 0
    // the error and URL checks are independent: a saved event that also carried
    // an error keeps the retry message next to the success message
    ensures Writes(step) ==>
              r.state.errorMessage == (if Truthy(step.event.error) then Some(UploadErrorMessage) else st.errorMessage)
    // an error without a URL touches only the progress, the message and the spinner
    ensures Truthy(step.event.error) && !Truthy(step.event.url) ==>
              r == Session(st.(uploadProgress := step.event.progress, errorMessage := Some(UploadErrorMessage),
                               isUploading := false), store)
    // the reset after a save marks the form untouched and keeps the accepted file types
    ensures Writes(step) ==> !r.state.touched && r.state.fileAcceptTypes == st.fileAcceptTypes
    // a failed write keeps what the error check left of the spinner and the picker
    ensures Truthy(step.event.url) && step.reply.WriteFailed? ==>
              r.state.isUploading == (st.isUploading && !Truthy(step.event.error))
              && r.state.fileAcceptTypes == st.fileAcceptTypes && r.state.touched == st.touched
  {
    var shown := ShowEvent(st, step.event);
    if !Truthy(step.event.url) then Session(shown, store)
    else SaveRecord(shown, store, BuildRecord(fv, step.event.url.value, step.now), step.reply)
  }

  /** Every record in `after` is either unchanged from `before` or a new pending record built from `fv`. */
  predicate GrowsWithSubmissions(before: Store, after: Store, fv: FormValue)
  {
    && before.Keys <= after.Keys
    && (forall k :: k in before ==> after[k] == before[k])
    && (forall k :: k in after && k !in before ==>
          after[k].status == Pending && |after[k].fileUrl| > 0 && CopiesForm(after[k], fv))
  }

  lemma GrowsTransitive(s1: Store, s2: Store, s3: Store, fv: FormValue)
    requires GrowsWithSubmissions(s1, s2, fv) && GrowsWithSubmissions(s2, s3, fv)
    ensures GrowsWithSubmissions(s1, s3, fv)
  {
  }

  /** The ids still to come stay fresh after the first step's write. */
  lemma FreshIdsTail(store: Store, steps: seq<Step>, next: Store)
    requires |steps| > 0 && FreshIds(store, steps)
    requires next.Keys <= store.Keys + (if Writes(steps[0]) then {steps[0].reply.id} else {})
    ensures FreshIds(next, steps[1..])
  {
    var rest := steps[1..];
    forall i | 0 <= i < |rest| && Writes(rest[i])
      ensures rest[i].reply.id !in next
    {
      assert rest[i] == steps[i + 1];
    }
    forall i, j | 0 <= i < j < |rest| && Writes(rest[i]) && Writes(rest[j])
      ensures rest[i].reply.id != rest[j].reply.id
    {
      assert rest[i] == steps[i + 1] && rest[j] == steps[j + 1];
    }
  }

  /** What one callback does to the collection: at most the one new record, counted once. */
  lemma OnEventStore(st: State, store: Store, fv: FormValue, step: Step)
    requires Writes(step) ==> step.reply.id !in store
    ensures var r := OnEvent(st, store, fv, step);
            && GrowsWithSubmissions(store, r.store, fv)
            && r.store.Keys <= store.Keys + (if Writes(step) then {step.reply.id} else {})
            && |r.store| == |store| + (if Writes(step) then 1 else 0)
  {
    if Writes(step) {
      AddsOneSize(store, OnEvent(st, store, fv, step).store, step.reply.id,
                  BuildRecord(fv, step.event.url.value, step.now));
    }
  }

  /** The callback run over every event of the stream, in order. */
  function RunSteps(st: State, store: Store, fv: FormValue, steps: seq<Step>): (r: Session)
    requires FreshIds(store, steps)
    ensures GrowsWithSubmissions(store, r.store, fv)
    ensures |steps| == 0 ==> r == Session(st, store)
    decreases |steps|
  {
    if |steps| == 0 then Session(st, store)
    else
      var first := OnEvent(st, store, fv, steps[0]);
      OnEventStore(st, store, fv, steps[0]);
      FreshIdsTail(store, steps, first.store);
      var r := RunSteps(first.state, first.store, fv, steps[1..]);
      GrowsTransitive(store, first.store, r.store, fv);
      r
  }

  /** A stream in which no write succeeds leaves the collection as it was. */
  lemma {:induction false} RunStepsWithoutWrites(st: State, store: Store, fv: FormValue, steps: seq<Step>)
    requires FreshIds(store, steps)
    requires forall i :: 0 <= i < |steps| ==> !Writes(steps[i])
    ensures RunSteps(st, store, fv, steps).store == store
    decreases |steps|
  {
    if |steps| > 0 {
      var first := OnEvent(st, store, fv, steps[0]);
      assert first.store == store;
      FreshIdsTail(store, steps, first.store);
      forall i | 0 <= i < |steps[1..]| ensures !Writes(steps[1..][i]) {
        assert steps[1..][i] == steps[i + 1];
      }
      RunStepsWithoutWrites(first.state, first.store, fv, steps[1..]);
    }
  }

  /** The progress shown at the end is the last event's, unless that event's write succeeded. */
  lemma {:induction false} RunStepsLastProgress(st: State, store: Store, fv: FormValue, steps: seq<Step>)
    requires FreshIds(store, steps)
    requires |steps| > 0 && !Writes(steps[|steps| - 1])
    ensures RunSteps(st, store, fv, steps).state.uploadProgress == steps[|steps| - 1].event.progress
    decreases |steps|
  {
    var first := OnEvent(st, store, fv, steps[0]);
    OnEventStore(st, store, fv, steps[0]);
    FreshIdsTail(store, steps, first.store);
    if |steps| > 1 {
      assert steps[1..][|steps[1..]| - 1] == steps[|steps| - 1];
      RunStepsLastProgress(first.state, first.store, fv, steps[1..]);
    }
  }

  /** The collection grows by exactly the number of events whose write succeeded. */
  lemma {:induction false} RunStepsCount(st: State, store: Store, fv: FormValue, steps: seq<Step>)
    requires FreshIds(store, steps)
    ensures |RunSteps(st, store, fv, steps).store| == |store| + |Seqs.Filter(steps, Writes)|
    decreases |steps|
  {
    if |steps| > 0 {
      var first := OnEvent(st, store, fv, steps[0]);
      OnEventStore(st, store, fv, steps[0]);
      FreshIdsTail(store, steps, first.store);
      RunStepsCount(first.state, first.store, fv, steps[1..]);
    }
  }

  /** The result of `onSubmit`, with whether the upload service was called. */
  datatype Submission = Submission(state: State, store: Store, uploadStarted: bool)

  /**
   * `onSubmit` for the whole event stream: the validity gate, then the
   * callback for each event; `completes` says whether the stream was torn
   * down (completion, an error notification or an unsubscribe), any of which
   * runs the `finalize` hook.
   */
  function Submit(st: State, store: Store, steps: seq<Step>, completes: bool): (r: Submission)
    requires FreshIds(store, steps)
    ensures !Valid(st.form) ==> !r.uploadStarted && r.store == store && r.state == st.(touched := true)
    ensures Valid(st.form) ==> r.uploadStarted && GrowsWithSubmissions(store, r.store, st.form)
    ensures Valid(st.form) && |steps| == 0 ==>
              r.state.errorMessage == None && r.state.successMessage == None && r.state.uploadProgress == 0
    ensures Valid(st.form) && completes ==> !r.state.isUploading
  {
    if !Valid(st.form) then
      Submission(st.(touched := true), store, false)
    else
      var started := st.(isUploading := true, successMessage := None, errorMessage := None, uploadProgress := 0);
      var fv := st.form.(file := None);
      var run := RunSteps(started, store, fv, steps);
      var finalState := if completes then run.state.(isUploading := false) else run.state;
      Submission(finalState, run.store, true)
  }

  /** After a reset the consent boxes are clear, so submitting again uploads and writes nothing. */
  lemma ResubmitAfterResetFails(st: State, store: Store, steps: seq<Step>, completes: bool)
    requires FreshIds(store, steps)
    ensures var r := Submit(ResetForm(st), store, steps, completes);
            !r.uploadStarted && r.store == store
  {
  }

  /**
   * The upload succeeds with URL `url` but the write fails: the collection
   * gains no record with that URL, the "uploaded but not saved" message is
   * shown and the form keeps what the user entered.
   */
  lemma UploadedButNotSaved(st: State, store: Store, progress: int, url: string, now: int)
    requires Valid(st.form) && |url| > 0
    requires forall k :: k in store ==> store[k].fileUrl != url
    ensures var r := Submit(st, store, [Step(UploadEvent(progress, Some(url), None), WriteFailed, now)], true);
            && r.uploadStarted
            && r.store == store
            && (forall k :: k in r.store ==> r.store[k].fileUrl != url)
            && r.state.errorMessage == Some(PersistenceErrorMessage)
            && r.state.successMessage == None
            && r.state.form == st.form
            && r.state.uploadProgress == progress
  {
    var steps := [Step(UploadEvent(progress, Some(url), None), WriteFailed, now)];
    var started := st.(isUploading := true, successMessage := None, errorMessage := None, uploadProgress := 0);
    var fv := st.form.(file := None);
    assert RunSteps(started, store, fv, steps) == RunSteps(OnEvent(started, store, fv, steps[0]).state, store, fv, []);
  }
}

=== FILE: contributions.dfy ===
/**
 * The community contribution as it is stored in the
 * `community-contributions` collection, shared by the submission form
 * (which creates it) and the moderation page (which approves or deletes it).
 */
module Contributions {

  /** `moderation.status`. */
  datatype Status = Pending | Approved | Rejected

  /**
   * The stored document: every field of the submission form except the
   * file itself, with `tags` parsed into a list, plus the uploaded file's
   * URL, the moderation status and the submission time.
   */
  datatype Contribution = Contribution(
    contentType: string,
    title: string,
    shuarTitle: string,
    description: string,
    shuarDescription: string,
    category: string,
    tags: seq<string>,
    contributor: string,
    location: string,
    culturalImportance: string,
    ageRestriction: string,
    permissions: bool,
    respect: bool,
    fileUrl: string,
    status: Status,
    submissionDate: int)

  /** The collection, keyed by the document id the database generates. */
  type Store = map<string, Contribution>

  /** `a` and `b` agree on every field except, possibly, the moderation status. */
  predicate SameExceptStatus(a: Contribution, b: Contribution)
  {
    a.(status := b.status) == b
  }
}

=== FILE: dictionary.dfy ===
/**
 * The dictionary page (`Dictionary`): the word list is narrowed by a
 * category, a difficulty and a case-insensitive search term, and every
 * change of one of them re-runs the filter over the full list.
 * The word list itself is a parameter.
 */
module Dictionary {
  import opened Wrappers
  import Text
  import Seqs

  datatype Word = Word(
    shuarWord: string,
    spanishTranslation: string,
    category: string,
    difficulty: string,
    pronunciationAudio: string,
    imageUrl: string,
    context: Option<string>)

  /** The wildcard value of the category and difficulty selectors. */
  const All: string := "all"

  datatype Criteria = Criteria(searchTerm: string, selectedCategory: string, selectedDifficulty: string)

  /** The criteria the component starts with. */
  const InitialCriteria: Criteria := Criteria("", All, All)

  predicate MatchesCategory(w: Word, c: Criteria)
  {
    c.selectedCategory == All || w.category == c.selectedCategory
  }

  predicate MatchesDifficulty(w: Word, c: Criteria)
  {
    c.selectedDifficulty == All || w.difficulty == c.selectedDifficulty
  }

  /**
   * The search looks in the Shuar word, the translation and the context;
   * an absent or empty context is falsy and never matches.
   */
  predicate MatchesSearch(w: Word, term: string)
  {
    || Text.IncludesIgnoringCase(w.shuarWord, term)
    || Text.IncludesIgnoringCase(w.spanishTranslation, term)
    || (w.context.Some? && |w.context.value| > 0 && Text.IncludesIgnoringCase(w.context.value, term))
  }

  predicate Matches(w: Word, c: Criteria)
  {
    MatchesCategory(w, c) && MatchesDifficulty(w, c) && MatchesSearch(w, c.searchTerm)
  }

  /** `filterWords()`: the words meeting all three criteria, in list order. */
  function FilterWords(all: seq<Word>, c: Criteria): (r: seq<Word>)
    ensures Seqs.IsSubsequence(r, all)
    ensures forall i :: 0 <= i < |r| ==> Matches(r[i], c)
    ensures forall i :: 0 <= i < |all| && Matches(all[i], c) ==> all[i] in r
    ensures forall w :: multiset(r)[w] == if Matches(w, c) then multiset(all)[w] else 0
    ensures c.selectedCategory != All ==> forall i :: 0 <= i < |r| ==> r[i].category == c.selectedCategory
    ensures c.selectedDifficulty != All ==> forall i :: 0 <= i < |r| ==> r[i].difficulty == c.selectedDifficulty
  {
    Seqs.FilterIsSubsequence(all, w => Matches(w, c));
    Seqs.FilterMembers(all, w => Matches(w, c));
    Seqs.FilterMultiset(all, w => Matches(w, c));
    Seqs.Filter(all, w => Matches(w, c))
  }

  /** The search means: the lower-cased term occurs somewhere in one of the three lower-cased texts. */
  lemma SearchMeaning(w: Word, term: string)
    ensures MatchesSearch(w, term) <==>
              || Text.Occurs(Text.Lower(term), Text.Lower(w.shuarWord))
              || Text.Occurs(Text.Lower(term), Text.Lower(w.spanishTranslation))
              || (w.context.Some? && |w.context.value| > 0
                  && Text.Occurs(Text.Lower(term), Text.Lower(w.context.value)))
  {
    Text.IncludesIffOccurs(Text.Lower(w.shuarWord), Text.Lower(term));
    Text.IncludesIffOccurs(Text.Lower(w.spanishTranslation), Text.Lower(term));
    if w.context.Some? {
      Text.IncludesIffOccurs(Text.Lower(w.context.value), Text.Lower(term));
    }
  }

  /** Without a selection and without a search term every word is shown, in order. */
  lemma DefaultShowsAll(all: seq<Word>)
    ensures FilterWords(all, InitialCriteria) == all
  {
    forall i | 0 <= i < |all|
      ensures Matches(all[i], InitialCriteria)
    {
      Text.IncludesIgnoringCaseEmpty(all[i].shuarWord);
    }
    Seqs.FilterAll(all, w => Matches(w, InitialCriteria));
  }

  /** Upper and lower case in the search term make no difference. */
  lemma SearchIgnoresCase(all: seq<Word>, c: Criteria)
    ensures FilterWords(all, c.(searchTerm := Text.Lower(c.searchTerm))) == FilterWords(all, c)
  {
    var c' := c.(searchTerm := Text.Lower(c.searchTerm));
    forall i | 0 <= i < |all|
      ensures Matches(all[i], c') == Matches(all[i], c)
    {
      var w := all[i];
      Text.IncludesIgnoringCaseLower(w.shuarWord, c.searchTerm);
      Text.IncludesIgnoringCaseLower(w.spanishTranslation, c.searchTerm);
      if w.context.Some? {
        Text.IncludesIgnoringCaseLower(w.context.value, c.searchTerm);
      }
    }
    Seqs.FilterCongruent(all, w => Matches(w, c'), w => Matches(w, c));
  }

  /* ------------------------------ component ------------------------------ */

  datatype State = State(criteria: Criteria, allWords: seq<Word>, filteredWords: seq<Word>)

  /** The shown list is the filter of the full list under the current criteria. */
  predicate Consistent(st: State)
  {
    st.filteredWords == FilterWords(st.allWords, st.criteria)
  }

  /** The constructor: default criteria, then an initial filter. */
  function Init(allWords: seq<Word>): (st: State)
    ensures Consistent(st)
    ensures st.criteria == InitialCriteria && st.allWords == allWords
    ensures st.filteredWords == allWords
  {
    DefaultShowsAll(allWords);
    State(InitialCriteria, allWords, FilterWords(allWords, InitialCriteria))
  }

  /** `onSearchChange`. */
  function OnSearchChange(st: State, value: string): (r: State)
    ensures Consistent(r) && r.allWords == st.allWords
    ensures r.criteria == st.criteria.(searchTerm := value)
  {
    var c := st.criteria.(searchTerm := value);
    st.(criteria := c, filteredWords := FilterWords(st.allWords, c))
  }

  /** `onCategoryChange`. */
  function OnCategoryChange(st: State, category: string): (r: State)
    ensures Consistent(r) && r.allWords == st.allWords
    ensures r.criteria == st.criteria.(selectedCategory := category)
  {
    var c := st.criteria.(selectedCategory := category);
    st.(criteria := c, filteredWords := FilterWords(st.allWords, c))
  }

  /** `onDifficultyChange`. */
  function OnDifficultyChange(st: State, difficulty: string): (r: State)
    ensures Consistent(r) && r.allWords == st.allWords
    ensures r.criteria == st.criteria.(selectedDifficulty := difficulty)
  {
    var c := st.criteria.(selectedDifficulty := difficulty);
    st.(criteria := c, filteredWords := FilterWords(st.allWords, c))
  }

  /** A user action on the dictionary page. */
  datatype Event = Search(value: string) | PickCategory(category: string) | PickDifficulty(difficulty: string)

  function Handle(st: State, e: Event): State
  {
    match e
    case Search(v) => OnSearchChange(st, v)
    case PickCategory(cat) => OnCategoryChange(st, cat)
    case PickDifficulty(d) => OnDifficultyChange(st, d)
  }

  /** Any sequence of user actions after construction keeps the list consistent and the full list intact. */
  function Run(st: State, events: seq<Event>): (r: State)
    requires Consistent(st)
    ensures Consistent(r) && r.allWords == st.allWords
    decreases |events|
  {
    if |events| == 0 then st else Run(Handle(st, events[0]), events[1..])
  }
}

=== FILE: moderation.dfy ===
/**
 * The moderation page (`Moderation`): approving and deleting stored
 * contributions, and the two label lookups its list uses.
 *
 * The collection is a map from document id to record. Each database call
 * is given the reply it would get (`Ok` or `Failed`); the confirmation
 * dialog is a boolean. Failures are caught and only logged, so the caller
 * never sees an error: the store is simply left as it was.
 */
module Moderation {
  import opened Contributions
  import Contribuir

  /** Whether the database accepted an update or delete request. */
  datatype Reply = Ok | Failed

  /**
   * `approveContribution(id)`: `updateDoc` of `moderation.status` only.
   * Updating an id that is not in the collection fails like any other
   * failed write.
   */
  function ApproveContribution(store: Store, id: string, reply: Reply): (r: Store)
    ensures r.Keys == store.Keys
    ensures forall k :: k in store && k != id ==> r[k] == store[k]
    ensures id in store && reply.Ok? ==> r[id].status == Approved && SameExceptStatus(r[id], store[id])
    ensures id !in store || reply.Failed? ==> r == store
  {
    if id in store && reply.Ok? then store[id := store[id].(status := Approved)]
    else store
  }

  /** Approving a second time changes nothing more. */
  lemma ApproveIdempotent(store: Store, id: string, reply: Reply)
    ensures ApproveContribution(ApproveContribution(store, id, reply), id, reply)
         == ApproveContribution(store, id, reply)
  {
    if id in store && reply.Ok? {
      var once := ApproveContribution(store, id, reply);
      assert once[id].(status := Approved) == once[id];
      assert once[id := once[id].(status := Approved)] == once;
    }
  }

  /**
   * `deleteContribution(id)`: asks for confirmation first; only a
   * confirmed, successful `deleteDoc` removes the record.
   */
  function DeleteContribution(store: Store, id: string, confirmed: bool, reply: Reply): (r: Store)
    ensures !confirmed ==> r == store
    ensures reply.Failed? ==> r == store
    ensures confirmed && reply.Ok? ==> r.Keys == store.Keys - {id}
    ensures forall k :: k in r ==> k in store && r[k] == store[k]
  {
    if confirmed && reply.Ok? then store - {id} else store
  }

  /** Deleting twice is deleting once. */
  lemma DeleteIdempotent(store: Store, id: string)
    ensures DeleteContribution(DeleteContribution(store, id, true, Ok), id, true, Ok)
         == DeleteContribution(store, id, true, Ok)
  {
    var once := DeleteContribution(store, id, true, Ok);
    assert once - {id} == once;
  }

  /* ------------------------------- labels ------------------------------- */

  const CategoryLabels: map<string, string> := map[
    "medicine" := "Medicina Tradicional",
    "ritual" := "Rituales y Ceremonias",
    "music" := "Música y Danza",
    "history" := "Historia Oral",
    "language" := "Lengua y Vocabulario"
  ]

  const ContentTypeLabels: map<string, string> := map[
    "audio" := "Audio",
    "video" := "Video",
    "image" := "Imagen",
    "document" := "Documento"
  ]

  /** `table[key] || key`: the label when there is a non-empty one, otherwise the key itself. */
  function LabelOr(table: map<string, string>, key: string): (r: string)
    ensures key in table && |table[key]| > 0 ==> r == table[key]
    ensures key !in table || |table[key]| == 0 ==> r == key
    ensures |key| > 0 ==> |r| > 0
  {
    if key in table && |table[key]| > 0 then table[key] else key
  }

  /** `getCategoryDisplay`: the five known categories get their labels, anything else is shown as is. */
  function CategoryDisplay(category: string): (r: string)
    ensures category in CategoryLabels ==> r == CategoryLabels[category]
    ensures category !in CategoryLabels ==> r == category
    ensures r == category <==> category !in CategoryLabels
  {
    LabelOr(CategoryLabels, category)
  }

  /** `getContentTypeDisplay`: the four known types get their labels, anything else is shown as is. */
  function ContentTypeDisplay(contentType: string): (r: string)
    ensures contentType in ContentTypeLabels ==> r == ContentTypeLabels[contentType]
    ensures contentType !in ContentTypeLabels ==> r == contentType
    ensures r == contentType <==> contentType !in ContentTypeLabels
  {
    LabelOr(ContentTypeLabels, contentType)
  }

  /** Every category the submission form offers is shown with the same name here. */
  lemma CategoryLabelsAgreeWithForm()
    ensures forall i :: 0 <= i < |Contribuir.Categories| ==>
              CategoryDisplay(Contribuir.Categories[i].id) == Contribuir.Categories[i].name
    ensures |Contribuir.Categories| == |CategoryLabels|
  {
    assert CategoryLabels.Keys == {"medicine", "ritual", "music", "history", "language"};
  }

  /** Every content type the submission form offers is shown with the same name here. */
  lemma ContentTypeLabelsAgreeWithForm()
    ensures forall i :: 0 <= i < |Contribuir.ContentTypes| ==>
              ContentTypeDisplay(Contribuir.ContentTypes[i].id) == Contribuir.ContentTypes[i].name
  {
  }

  /* --------------------------- with submission --------------------------- */

  /**
   * A record that a successful submission added is pending, and approving
   * it makes it approved while keeping what the submitter entered.
   */
  lemma ApproveSubmitted(st: Contribuir.State, store: Store, fv: Contribuir.FormValue, step: Contribuir.Step)
    requires Contribuir.Writes(step) && step.reply.id !in store
    ensures var added := Contribuir.OnEvent(st, store, fv, step).store;
            var approved := ApproveContribution(added, step.reply.id, Ok);
            && added[step.reply.id].status == Pending
            && approved[step.reply.id].status == Approved
            && Contribuir.CopiesForm(approved[step.reply.id], fv)
            && approved[step.reply.id].fileUrl == step.event.url.value
            && (forall k :: k in store ==> approved[k] == store[k])
  {
  }
}

=== FILE: profile.dfy ===
/**
 * The profile page (`Profile`): an edit session over the user's data with
 * a snapshot taken on entry, so that cancelling restores it, plus
 * independent preference and privacy settings. The initial user data is
 * a parameter.
 */
module Profile {

  datatype User = User(name: string, role: string, bio: string, avatar: string, level: int, points: int)

  datatype Preferences = Preferences(language: string, theme: string)

  datatype Privacy = Privacy(shareProgress: bool, shareData: bool)

  datatype State = State(
    activeTab: string,
    isEditing: bool,
    user: User,
    preferences: Preferences,
    privacy: Privacy,
    originalUser: User)

  /** The component as constructed; the snapshot starts as a copy of the user. */
  function Init(user: User): (st: State)
    ensures !st.isEditing && st.activeTab == "perfil"
    ensures st.user == user && st.originalUser == user
    ensures st.preferences == Preferences("es", "claro")
    ensures st.privacy.shareProgress && st.privacy.shareData
  {
    State("perfil", false, user, Preferences("es", "claro"), Privacy(true, true), user)
  }

  /** `setActiveTab(tab)`. */
  function SetActiveTab(st: State, tab: string): (r: State)
    ensures r.activeTab == tab
    ensures r.(activeTab := st.activeTab) == st
  {
    st.(activeTab := tab)
  }

  /** `toggleEditMode()`: entering edit mode takes a snapshot; leaving it keeps the edits. */
  function ToggleEditMode(st: State): (r: State)
    ensures r.isEditing == !st.isEditing
    ensures r.user == st.user
    ensures !st.isEditing ==> r.originalUser == st.user
    ensures st.isEditing ==> r.originalUser == st.originalUser
    ensures r.(isEditing := st.isEditing, originalUser := st.originalUser) == st
  {
    var snap := if !st.isEditing then st.(originalUser := st.user) else st;
    snap.(isEditing := !st.isEditing)
  }

  /** `saveProfile()`: the edits stay and edit mode ends. */
  function SaveProfile(st: State): (r: State)
    ensures !r.isEditing && r.user == st.user
    ensures r.(isEditing := st.isEditing) == st
  {
    st.(isEditing := false)
  }

  /** `cancelEdit()`: the snapshot replaces the user and edit mode ends. */
  function CancelEdit(st: State): (r: State)
    ensures !r.isEditing && r.user == st.originalUser
    ensures r.(isEditing := st.isEditing, user := st.user) == st
  {
    st.(user := st.originalUser, isEditing := false)
  }

  /** `setTheme(theme)`. */
  function SetTheme(st: State, theme: string): (r: State)
    ensures r.preferences.theme == theme && r.preferences.language == st.preferences.language
    ensures r.(preferences := st.preferences) == st
  {
    st.(preferences := st.preferences.(theme := theme))
  }

  /** `toggleShareProgress()`. */
  function ToggleShareProgress(st: State): (r: State)
    ensures r.privacy.shareProgress == !st.privacy.shareProgress
    ensures r.privacy.shareData == st.privacy.shareData
    ensures r.(privacy := st.privacy) == st
  {
    st.(privacy := st.privacy.(shareProgress := !st.privacy.shareProgress))
  }

  /** `toggleShareData()`. */
  function ToggleShareData(st: State): (r: State)
    ensures r.privacy.shareData == !st.privacy.shareData
    ensures r.privacy.shareProgress == st.privacy.shareProgress
    ensures r.(privacy := st.privacy) == st
  {
    st.(privacy := st.privacy.(shareData := !st.privacy.shareData))
  }

  lemma TogglesAreInvolutions(st: State)
    ensures ToggleShareProgress(ToggleShareProgress(st)) == st
    ensures ToggleShareData(ToggleShareData(st)) == st
  {
  }

  /**
   * What the page can do while an edit is open, other than save, cancel
   * or toggling edit mode: the template edits the user fields in place.
   */
  datatype Edit =
    | EditUser(user: User)
    | PickTab(tab: string)
    | PickTheme(theme: string)
    | FlipShareProgress
    | FlipShareData

  function ApplyEdit(st: State, e: Edit): State
  {
    match e
    case EditUser(u) => st.(user := u)
    case PickTab(t) => SetActiveTab(st, t)
    case PickTheme(t) => SetTheme(st, t)
    case FlipShareProgress => ToggleShareProgress(st)
    case FlipShareData => ToggleShareData(st)
  }

  /** Edits in order; none of them touches the snapshot or the edit flag. */
  function ApplyEdits(st: State, edits: seq<Edit>): (r: State)
    ensures r.originalUser == st.originalUser && r.isEditing == st.isEditing
    decreases |edits|
  {
    if |edits| == 0 then st else ApplyEdits(ApplyEdit(st, edits[0]), edits[1..])
  }

  /** Enter edit mode, change anything, cancel: the user is back to what it was before the edit. */
  lemma CancelRestoresUser(st: State, edits: seq<Edit>)
    requires !st.isEditing
    ensures var r := CancelEdit(ApplyEdits(ToggleEditMode(st), edits));
            r.user == st.user && !r.isEditing
  {
  }

  /** Enter edit mode, change the user, save: the new user stays. */
  lemma SaveKeepsEdits(st: State, u: User)
    requires !st.isEditing
    ensures var r := SaveProfile(ApplyEdit(ToggleEditMode(st), EditUser(u)));
            r.user == u && !r.isEditing
  {
  }

  /** Toggling out of edit mode keeps the edits and does not move the snapshot. */
  lemma ToggleOutKeepsEdits(st: State, edits: seq<Edit>)
    requires !st.isEditing
    ensures var editing := ApplyEdits(ToggleEditMode(st), edits);
            var r := ToggleEditMode(editing);
            r.user == editing.user && !r.isEditing && r.originalUser == st.user
  {
  }
}

=== FILE: seqs.dfy ===
/**
 * `Array.prototype.filter` and `Array.prototype.map` over immutable
 * sequences, with the facts the catalogue filters rely on.
 */
module Seqs {

  /** `a` is obtained from `b` by deleting elements, keeping the order of the rest. */
  predicate IsSubsequence<T(==)>(a: seq<T>, b: seq<T>)
    decreases |b|
  {
    if |a| == 0 then true
    else if |b| == 0 then false
    else if a[0] == b[0] then IsSubsequence(a[1..], b[1..])
    else IsSubsequence(a, b[1..])
  }

  /** `s.filter(p)`: the elements of `s` that satisfy `p`, in their original order. */
  function Filter<T(==)>(s: seq<T>, p: T -> bool): (r: seq<T>)
    ensures |r| <= |s|
    ensures forall i :: 0 <= i < |r| ==> p(r[i])
    decreases |s|
  {
    if |s| == 0 then []
    else if p(s[0]) then [s[0]] + Filter(s[1..], p)
    else Filter(s[1..], p)
  }

  /** The filtered sequence holds exactly the elements of `s` that satisfy `p`. */
  lemma {:induction false} FilterMembers<T>(s: seq<T>, p: T -> bool)
    ensures forall i :: 0 <= i < |Filter(s, p)| ==> Filter(s, p)[i] in s
    ensures forall i :: 0 <= i < |s| && p(s[i]) ==> s[i] in Filter(s, p)
    decreases |s|
  {
    if |s| > 0 {
      FilterMembers(s[1..], p);
      var f := Filter(s[1..], p);
      forall i | 0 <= i < |f| ensures f[i] in s { assert f[i] in s[1..]; }
      forall i | 1 <= i < |s| && p(s[i]) ensures s[i] in Filter(s, p) { assert s[i] == s[1..][i - 1]; }
    }
  }

  /** Every element satisfying `p` is kept as often as it occurs in `s`; every other element is dropped. */
  lemma {:induction false} FilterMultiset<T>(s: seq<T>, p: T -> bool)
    ensures forall x :: multiset(Filter(s, p))[x] == if p(x) then multiset(s)[x] else 0
    decreases |s|
  {
    if |s| > 0 {
      FilterMultiset(s[1..], p);
      assert s == [s[0]] + s[1..];
      assert multiset(s) == multiset{s[0]} + multiset(s[1..]);
      if p(s[0]) {
        assert multiset(Filter(s, p)) == multiset{s[0]} + multiset(Filter(s[1..], p));
      }
    }
  }

  /** The filtered sequence keeps the relative order of `s`. */
  lemma {:induction false} FilterIsSubsequence<T>(s: seq<T>, p: T -> bool)
    ensures IsSubsequence(Filter(s, p), s)
    decreases |s|
  {
    if |s| > 0 {
      FilterIsSubsequence(s[1..], p);
      var f := Filter(s[1..], p);
      if !p(s[0]) {
        SkipHead(f, s);
      }
    }
  }

  /** A subsequence of the tail is a subsequence of the whole. */
  lemma {:induction false} SkipHead<T>(a: seq<T>, b: seq<T>)
    requires |b| > 0
    requires IsSubsequence(a, b[1..])
    ensures IsSubsequence(a, b)
    decreases |a| + |b|
  {
    if |a| > 0 && a[0] == b[0] {
      SubsequenceTail(a, b[1..]);
    }
  }

  /** Dropping the first element of a subsequence keeps it a subsequence. */
  lemma {:induction false} SubsequenceTail<T>(a: seq<T>, b: seq<T>)
    requires |a| > 0
    requires IsSubsequence(a, b)
    ensures IsSubsequence(a[1..], b)
    decreases |a| + |b|
  {
    if a[0] != b[0] {
      SubsequenceTail(a, b[1..]);
    }
    if |a[1..]| > 0 {
      SkipHead(a[1..], b);
    }
  }

  /** A predicate that every element satisfies filters nothing out. */
  lemma {:induction false} FilterAll<T>(s: seq<T>, p: T -> bool)
    requires forall i :: 0 <= i < |s| ==> p(s[i])
    ensures Filter(s, p) == s
    decreases |s|
  {
    if |s| > 0 {
      FilterAll(s[1..], p);
      assert s == [s[0]] + s[1..];
    }
  }

  /** A predicate no element satisfies filters everything out. */
  lemma {:induction false} FilterNone<T>(s: seq<T>, p: T -> bool)
    requires forall i :: 0 <= i < |s| ==> !p(s[i])
    ensures Filter(s, p) == []
    decreases |s|
  {
    if |s| > 0 {
      FilterNone(s[1..], p);
    }
  }

  /** Filtering distributes over concatenation. */
  lemma {:induction false} FilterConcat<T>(a: seq<T>, b: seq<T>, p: T -> bool)
    ensures Filter(a + b, p) == Filter(a, p) + Filter(b, p)
    decreases |a|
  {
    if |a| == 0 {
      assert a + b == b;
    } else {
      assert (a + b)[1..] == a[1..] + b;
      FilterConcat(a[1..], b, p);
    }
  }

  /** Two predicates that agree on every element of `s` filter it alike. */
  lemma {:induction false} FilterCongruent<T>(s: seq<T>, p: T -> bool, q: T -> bool)
    requires forall i :: 0 <= i < |s| ==> p(s[i]) == q(s[i])
    ensures Filter(s, p) == Filter(s, q)
    decreases |s|
  {
    if |s| > 0 {
      FilterCongruent(s[1..], p, q);
    }
  }

  /** Every element of the filtered sequence has any property every element of `s` has. */
  lemma {:induction false} FilterKeeps<T>(s: seq<T>, p: T -> bool, q: T -> bool)
    requires forall i :: 0 <= i < |s| ==> q(s[i])
    ensures forall i :: 0 <= i < |Filter(s, p)| ==> q(Filter(s, p)[i])
    decreases |s|
  {
    if |s| > 0 {
      FilterKeeps(s[1..], p, q);
    }
  }

  /** `s.map(f)`. */
  function Map<A, B>(s: seq<A>, f: A -> B): (r: seq<B>)
    ensures |r| == |s|
    ensures forall i :: 0 <= i < |s| ==> r[i] == f(s[i])
  {
    seq(|s|, i requires 0 <= i < |s| => f(s[i]))
  }

  lemma MapConcat<A, B>(a: seq<A>, b: seq<A>, f: A -> B)
    ensures Map(a + b, f) == Map(a, f) + Map(b, f)
  {
  }
}

=== FILE: stories.dfy ===
/**
 * The stories page (`Stories`): a category picker over a fixed list of
 * stories, where `'Todos'` shows them all. The story list is a parameter.
 */
module Stories {
  import Seqs

  datatype Story = Story(title: string, description: string, author: string, category: string, imageUrl: string)

  /** The picker value that shows every story. */
  const Everything: string := "Todos"

  datatype State = State(allStories: seq<Story>, stories: seq<Story>, selectedCategory: string)

  predicate InCategory(s: Story, category: string) { s.category == category }

  /** `filterByCategory(category)`. */
  function FilterByCategory(st: State, category: string): (r: State)
    ensures r.selectedCategory == category && r.allStories == st.allStories
    ensures category == Everything ==> r.stories == st.allStories
    ensures category != Everything ==>
              && Seqs.IsSubsequence(r.stories, st.allStories)
              && (forall i :: 0 <= i < |r.stories| ==> r.stories[i].category == category)
              && (forall i :: 0 <= i < |st.allStories| && st.allStories[i].category == category ==>
                    st.allStories[i] in r.stories)
              && (forall s :: multiset(r.stories)[s] ==
                    if s.category == category then multiset(st.allStories)[s] else 0)
  {
    Seqs.FilterIsSubsequence(st.allStories, s => InCategory(s, category));
    Seqs.FilterMembers(st.allStories, s => InCategory(s, category));
    Seqs.FilterMultiset(st.allStories, s => InCategory(s, category));
    var shown :=
      if category == Everything then st.allStories
      else Seqs.Filter(st.allStories, s => InCategory(s, category));
    st.(selectedCategory := category, stories := shown)
  }

  /** A category no story has shows nothing. */
  lemma UnknownCategoryShowsNothing(st: State, category: string)
    requires category != Everything
    requires forall i :: 0 <= i < |st.allStories| ==> st.allStories[i].category != category
    ensures FilterByCategory(st, category).stories == []
  {
    Seqs.FilterNone(st.allStories, s => InCategory(s, category));
  }

  /** The outcome depends only on the story list and the argument, not on the previous pick. */
  lemma FilterForgetsHistory(st1: State, st2: State, category: string)
    requires st1.allStories == st2.allStories
    ensures FilterByCategory(st1, category) == FilterByCategory(st2, category)
  {
  }

  /** Picking the same category again changes nothing. */
  lemma FilterIdempotent(st: State, category: string)
    ensures FilterByCategory(FilterByCategory(st, category), category) == FilterByCategory(st, category)
  {
    FilterForgetsHistory(FilterByCategory(st, category), st, category);
  }

  /** `ngOnInit`: every story shown under `'Todos'`. */
  function Init(allStories: seq<Story>): (st: State)
    ensures st.selectedCategory == Everything
    ensures st.stories == allStories && st.allStories == allStories
  {
    FilterByCategory(State(allStories, [], Everything), Everything)
  }
}

=== FILE: text.dfy ===
/**
 * The few string operations the components use: ASCII lower-casing
 * (`toLowerCase`), substring search (`includes`), whitespace trimming
 * (`trim`) and splitting on one separator character (`split`).
 * Strings are `seq<char>`; only the ASCII part of JavaScript's Unicode
 * behaviour is modelled.
 */
module Text {

  /* ----------------------------- lower case ----------------------------- */

  predicate IsUpper(c: char) { 'A' <= c <= 'Z' }

  function LowerChar(c: char): (r: char)
    ensures IsUpper(c) ==> r as int == c as int + 32
    ensures !IsUpper(c) ==> r == c
    ensures !IsUpper(r)
  {
    if IsUpper(c) then (c as int + 32) as char else c
  }

  /** `s.toLowerCase()` restricted to ASCII letters. */
  function Lower(s: string): (r: string)
    ensures |r| == |s|
    ensures forall i :: 0 <= i < |s| ==> r[i] == LowerChar(s[i])
    ensures forall i :: 0 <= i < |r| ==> !IsUpper(r[i])
    ensures forall i :: 0 <= i < |s| && !IsUpper(s[i]) ==> r[i] == s[i]
  {
    seq(|s|, i requires 0 <= i < |s| => LowerChar(s[i]))
  }

  /** Lower-casing twice is lower-casing once. */
  lemma LowerIdempotent(s: string)
    ensures Lower(Lower(s)) == Lower(s)
  {
    var l := Lower(s);
    assert forall i :: 0 <= i < |l| ==> LowerChar(l[i]) == l[i];
  }

  /* ----------------------------- includes ------------------------------ */

  predicate IsPrefix(p: string, s: string)
  {
    |p| <= |s| && p == s[..|p|]
  }

  /** `s.includes(t)`: does `t` occur in `s` at some position? */
  predicate Includes(s: string, t: string)
    decreases |s|
  {
    IsPrefix(t, s) || (|s| > 0 && Includes(s[1..], t))
  }

  /** The declarative meaning of `includes`: a window of `s` equals `t`. */
  ghost predicate OccursAt(t: string, s: string, i: int)
  {
    0 <= i && i + |t| <= |s| && s[i..i + |t|] == t
  }

  ghost predicate Occurs(t: string, s: string)
  {
    exists i :: OccursAt(t, s, i)
  }

  /** The recursive search agrees with the declarative definition. */
  lemma {:induction false} IncludesIffOccurs(s: string, t: string)
    ensures Includes(s, t) <==> Occurs(t, s)
    decreases |s|
  {
    if IsPrefix(t, s) {
      assert OccursAt(t, s, 0);
    } else {
      if |s| > 0 {
        IncludesIffOccurs(s[1..], t);
        if Includes(s[1..], t) {
          var i :| OccursAt(t, s[1..], i);
          assert s[1..][i..i + |t|] == s[i + 1..i + 1 + |t|];
          assert OccursAt(t, s, i + 1);
        }
      }
      if Occurs(t, s) {
        var i :| OccursAt(t, s, i);
        if i == 0 {
          assert false;
        }
        assert s[1..][i - 1..i - 1 + |t|] == s[i..i + |t|];
        assert OccursAt(t, s[1..], i - 1);
      }
    }
  }

  /** Every string includes the empty string (`x.includes('')` is true). */
  lemma {:induction false} IncludesEmpty(s: string)
    ensures Includes(s, "")
  {
    assert IsPrefix("", s);
  }

  /** `field.toLowerCase().includes(term.toLowerCase())`. */
  predicate IncludesIgnoringCase(field: string, term: string)
  {
    Includes(Lower(field), Lower(term))
  }

  /** A term and its lower-cased form match the same fields. */
  lemma IncludesIgnoringCaseLower(field: string, term: string)
    ensures IncludesIgnoringCase(field, Lower(term)) == IncludesIgnoringCase(field, term)
  {
    LowerIdempotent(term);
  }

  /** The empty term matches every field. */
  lemma IncludesIgnoringCaseEmpty(field: string)
    ensures IncludesIgnoringCase(field, "")
  {
    IncludesEmpty(Lower(field));
  }

  /* ------------------------------- trim -------------------------------- */

  /** The ASCII characters JavaScript's `trim` removes. */
  predicate IsSpace(c: char)
  {
    c == ' ' || c == '\t' || c == '\n' || c == '\r' || c == '\U{000B}' || c == '\U{000C}'
  }

  predicate AllSpace(s: string)
  {
    forall i :: 0 <= i < |s| ==> IsSpace(s[i])
  }

  /** No whitespace at either end. */
  predicate Trimmed(s: string)
  {
    |s| == 0 || (!IsSpace(s[0]) && !IsSpace(s[|s| - 1]))
  }

  /** Number of whitespace characters `s` starts with. */
  function LeadingSpaces(s: string): (k: nat)
    ensures k <= |s|
    ensures AllSpace(s[..k])
    ensures k < |s| ==> !IsSpace(s[k])
  {
    if |s| == 0 || !IsSpace(s[0]) then 0
    else
      var k := 1 + LeadingSpaces(s[1..]);
      assert s[..k] == [s[0]] + s[1..][..k - 1];
      k
  }

  /** Number of whitespace characters `s` ends with. */
  function TrailingSpaces(s: string): (k: nat)
    ensures k <= |s|
    ensures AllSpace(s[|s| - k..])
    ensures k < |s| ==> !IsSpace(s[|s| - k - 1])
  {
    if |s| == 0 || !IsSpace(s[|s| - 1]) then 0
    else
      var k := 1 + TrailingSpaces(s[..|s| - 1]);
      assert s[|s| - k..] == s[..|s| - 1][|s| - k..] + [s[|s| - 1]];
      k
  }

  /**
   * `s.trim()`: `s` is leading whitespace, then the result, then trailing
   * whitespace, and the result has no whitespace at either end.
   */
  function Trim(s: string): (r: string)
    ensures Trimmed(r)
    ensures LeadingSpaces(s) + |r| <= |s|
    ensures r == s[LeadingSpaces(s)..LeadingSpaces(s) + |r|]
    ensures AllSpace(s[LeadingSpaces(s) + |r|..])
  {
    var a := LeadingSpaces(s);
    var rest := s[a..];
    var b := TrailingSpaces(rest);
    var r := rest[..|rest| - b];
    assert rest[|rest| - b..] == s[a + |r|..];
    r
  }

  /** Trimming only removes characters, so a character absent from `s` is absent from its trim. */
  lemma TrimKeepsOut(s: string, c: char)
    requires c !in s
    ensures c !in Trim(s)
  {
    var r := Trim(s);
    var a := LeadingSpaces(s);
    forall k | 0 <= k < |r|
      ensures r[k] != c
    {
      assert r[k] == s[a + k];
    }
  }

  /** A string without whitespace at its ends is its own trim. */
  lemma {:induction false} TrimOfTrimmed(s: string)
    requires Trimmed(s)
    ensures Trim(s) == s
  {
    if |s| > 0 {
      assert LeadingSpaces(s) == 0;
      assert TrailingSpaces(s) == 0;
    }
  }

  /** Trimming removes exactly the whitespace padding around a trimmed, non-empty word. */
  lemma TrimPadded(pre: string, w: string, post: string)
    requires AllSpace(pre) && AllSpace(post)
    requires |w| > 0 && Trimmed(w)
    ensures Trim(pre + w + post) == w
  {
    var s := pre + w + post;
    var k := LeadingSpaces(s);
    var r := Trim(s);
    assert forall i :: 0 <= i < |pre| ==> IsSpace(s[i]);
    assert forall i :: |pre| + |w| <= i < |s| ==> IsSpace(s[i]);
    assert !IsSpace(s[|pre|]) && !IsSpace(s[|pre| + |w| - 1]);
    assert k == |pre|;
    assert |r| == |w|;
    assert r == s[|pre|..|pre| + |w|];
  }

  /* ------------------------------- split ------------------------------- */

  /** Number of occurrences of `c` in `s`. */
  function CountChar(s: string, c: char): nat
  {
    if |s| == 0 then 0 else (if s[0] == c then 1 else 0) + CountChar(s[1..], c)
  }

  /**
   * `s.split(sep)`: the maximal separator-free pieces, in order; there is
   * always one more piece than separators, so `"".split(',')` is `[""]`.
   */
  function Split(s: string, sep: char): (r: seq<string>)
    ensures |r| == CountChar(s, sep) + 1
    ensures forall i :: 0 <= i < |r| ==> sep !in r[i]
    decreases |s|
  {
    if |s| == 0 then [""]
    else
      var rest := Split(s[1..], sep);
      if s[0] == sep then [""] + rest
      else [[s[0]] + rest[0]] + rest[1..]
  }

  /** `pieces.join(sep)`. */
  function Join(pieces: seq<string>, sep: char): string
  {
    if |pieces| == 0 then ""
    else if |pieces| == 1 then pieces[0]
    else pieces[0] + [sep] + Join(pieces[1..], sep)
  }

  /** Joining the pieces back with the separator gives the input. */
  lemma {:induction false} JoinSplit(s: string, sep: char)
    ensures Join(Split(s, sep), sep) == s
    decreases |s|
  {
    if |s| > 0 {
      var rest := Split(s[1..], sep);
      JoinSplit(s[1..], sep);
      if s[0] == sep {
        assert s == [sep] + s[1..];
      } else if |rest| == 1 {
        assert s == [s[0]] + s[1..];
      } else {
        assert rest == [rest[0]] + rest[1..];
        assert Join(rest, sep) == rest[0] + [sep] + Join(rest[1..], sep);
        assert s == [s[0]] + s[1..];
      }
    }
  }

  /** Splitting a join of separator-free pieces gives the pieces back. */
  lemma {:induction false} SplitJoin(pieces: seq<string>, sep: char)
    requires |pieces| >= 1
    requires forall i :: 0 <= i < |pieces| ==> sep !in pieces[i]
    ensures Split(Join(pieces, sep), sep) == pieces
    decreases |pieces|
  {
    if |pieces| == 1 {
      SplitFree(pieces[0], sep);
    } else {
      SplitJoin(pieces[1..], sep);
      SplitConcat(pieces[0], Join(pieces[1..], sep), sep);
      SplitFree(pieces[0], sep);
      assert pieces == [pieces[0]] + pieces[1..];
    }
  }

  /** A separator-free string is a single piece. */
  lemma {:induction false} SplitFree(s: string, sep: char)
    requires sep !in s
    ensures Split(s, sep) == [s]
    decreases |s|
  {
    if |s| > 0 {
      assert sep !in s[1..];
      SplitFree(s[1..], sep);
      assert s == [s[0]] + s[1..];
    }
  }

  /** One step of `Split`: the first character either ends the first piece or joins it. */
  lemma SplitCons(c: char, t: string, sep: char)
    ensures Split([c] + t, sep) == ConsPiece(c, sep, Split(t, sep))
  {
    assert ([c] + t)[1..] == t;
  }

  /** The piece list after one `Split` step, given the pieces of the rest. */
  function ConsPiece(c: char, sep: char, rest: seq<string>): seq<string>
    requires |rest| > 0
  {
    if c == sep then [""] + rest else [[c] + rest[0]] + rest[1..]
  }

  /** A `Split` step in front of `ra + rb` is the same step in front of `ra`, followed by `rb`. */
  lemma ConsPieceConcat(c: char, sep: char, ra: seq<string>, rb: seq<string>)
    requires |ra| > 0
    ensures ConsPiece(c, sep, ra + rb) == ConsPiece(c, sep, ra) + rb
  {
    if c != sep {
      assert (ra + rb)[0] == ra[0];
      assert (ra + rb)[1..] == ra[1..] + rb;
    }
  }

  lemma PeelFirst<T>(a: seq<T>, x: T, b: seq<T>)
    requires |a| > 0
    ensures a + [x] + b == [a[0]] + (a[1..] + [x] + b)
    ensures a == [a[0]] + a[1..]
  {
  }

  /** The step case of `SplitConcat`: the first character of `a` is split off the same way on both sides. */
  lemma SplitConcatStep(a: string, b: string, sep: char)
    requires |a| > 0
    requires Split(a[1..] + [sep] + b, sep) == Split(a[1..], sep) + Split(b, sep)
    ensures Split(a + [sep] + b, sep) == Split(a, sep) + Split(b, sep)
  {
    var c, t := a[0], a[1..] + [sep] + b;
    PeelFirst(a, sep, b);
    SplitCons(c, t, sep);
    SplitCons(c, a[1..], sep);
    ConsPieceConcat(c, sep, Split(a[1..], sep), Split(b, sep));
  }

  /** Splitting distributes over a separator: `(a + sep + b)` splits into the pieces of `a` then those of `b`. */
  lemma {:induction false} SplitConcat(a: string, b: string, sep: char)
    ensures Split(a + [sep] + b, sep) == Split(a, sep) + Split(b, sep)
    decreases |a|
  {
    if |a| == 0 {
      var s := a + [sep] + b;
      assert s[1..] == b;
    } else {
      SplitConcat(a[1..], b, sep);
      SplitConcatStep(a, b, sep);
    }
  }
}

=== FILE: wrappers.dfy ===
/** Optional values, standing for JavaScript's `null` / `undefined` and optional fields. */
module Wrappers {

  datatype Option<+T> = None | Some(value: T)
}
